=== FILE: README.md ===
# Stock financials pipeline: a Dafny model

This project models the pure logic of a small stock-research tool. The tool
scrapes the quarterly results table of a company page, normalises every cell
to a plain signed decimal, and merges the numbers into a fact table keyed by
stock, metric and quarter. It shows the table back as two pivots: one per stock,
and one per sector. A fallback app files a stock's metrics into five display
categories by keyword.

The model is functional. Strings are `seq<char>`, the fact table is a
`map<Key, Fact>`, and every Python loop becomes a fold or a `while` loop that
carries the invariant tying it to an order-free description.

| module (file) | what it models |
|---|---|
| `Wrappers` (wrappers.dfy) | `Option` |
| `Text` (text.dfy) | `str.strip()`, `str.split(sep)`, ASCII `str.lower()`, the substring test `w in s` |
| `Order` (order.dfy) | Python's code-point order on strings, `sorted`/`list.sort()`, "append if not seen" de-duplication |
| `Values` (values.dfy) | `clean_value` and `is_valid` |
| `Scraper` (scraper.dfy) | the page-to-record part of `get_financial_data`: breadcrumb split, quarter labels, metric rows |
| `Store` (store.dfy) | `insert_quarterly_to_snowflake` as updates of a map keyed by `(stock, metric, quarter)` |
| `Views` (views.dfy) | the pivots of `quarterly_view` and `sector_view` |
| `Categories` (categories.dfy) | `categorize_metric` and the bucketing loop of the fallback `quarterly_view` in emergency_fix.py |
| `Environment` (environment.dfy) | the missing-variable computation of `check_environment` |

Outside interfaces become parameters:
- The HTTP response is a status code plus the texts of the cells the CSS selectors return (`Scraper.Response`).
- A query's result is the sequence of rows it returns (`Views.Cell`).
- The process environment is a map from variable names to values.
- The percent branch of `clean_value`, `str(float(x) / 100)`, is a function parameter `fraction`. It stands for an opaque computation on the text with its percent signs stripped. The shape, idempotence and validity properties of the normaliser are stated only for cells whose normalised text does not end in `%`. `Values.SeparatorsIgnored` and `Values.CleanByNormalized` hold for percent cells too: `SeparatorsIgnored` holds for any cell without whitespace, and `CleanByNormalized` for any two cells with the same normalised text.

## Model

| member | source | states |
|---|---|---|
| `Values.CleanValueShape` | stock_recommender.py:162-179 | outside the percent branch a cleaned cell is `""` or matches `-?\d+(\.\d+)?`, and holds no comma, plus sign or no-break space |
| `Values.CleanIdempotent` | stock_recommender.py:162-179 | outside the percent branch, cleaning a cleaned value changes nothing (so `""` stays `""`) |
| `Values.CleanDecimal` | stock_recommender.py:175-177 | every canonical decimal is a fixed point of the normaliser |
| `Values.CleanParenthesised` | stock_recommender.py:171-173 | for every unsigned number `d`, the cell `(d)` cleans to `-d` |
| `Values.SeparatorsIgnored` | stock_recommender.py:163 | for a cell without whitespace, deleting its commas, plus signs and no-break spaces first does not change the result |
| `Values.CleanNegativeExample` | stock_recommender.py:171-177 | `"(123)"` cleans to `"-123"` |
| `Values.CleanSeparatorExamples` | stock_recommender.py:163-177 | `"1,234"` cleans to `"1234"` and `"+5"` to `"5"` |
| `Values.CleanPaddedExample` | stock_recommender.py:163-177 | `" 1,234.50 "` cleans to `"1234.50"` |
| `Values.CleanDash` | stock_recommender.py:176-179 | the site's no-data mark `"-"` cleans to `""` |
| `Values.CleanWord` | stock_recommender.py:176-179 | non-numeric text (`"abc"`, `"n/a"`) cleans to `""` |
| `Values.CleanEmpty` | stock_recommender.py:162-179 | the empty cell cleans to `""` |
| `Values.CleanByNormalized` | stock_recommender.py:163-179 | two cells with the same normalised text (stripped, separators deleted) clean to the same value, whatever the percent branch does |
| `Values.ValidEntryOfClean` | stock_recommender.py:257-258 | a cleaned non-percent cell passes the `is_valid` pattern exactly when it is not empty |
| `Values.ValidIffNoHoles` | stock_recommender.py:257-258 | a list of cleaned non-percent cells is valid exactly when no cell was cleaned to `""` |
| `Scraper.Classify` | stock_recommender.py:193-198 | a missing breadcrumb gives `("", "")`; category and industry never contain the separator `›` and carry no surrounding whitespace |
| `Scraper.ClassifyParts` | stock_recommender.py:194-196 | a breadcrumb of three or more `›`-separated parts yields its second and third part, stripped |
| `Scraper.ClassifyTooShort` | stock_recommender.py:193-198 | a breadcrumb of one or two parts yields `("", "")` rather than failing |
| `Scraper.ScenarioBreadcrumb` | stock_recommender.py:193-196 | `Home › Energy › Oil & Gas` gives category `Energy` and industry `Oil & Gas` |
| `Scraper.GetFinancialData` | stock_recommender.py:182-218 | a non-200 response gives the empty record; otherwise the breadcrumb gives category and industry; no quarterly section gives no data and no quarters; every metric has one value per quarter |
| `Scraper.ScenarioQuarters` | stock_recommender.py:206-207 | the header `["", "Mar 2023", "Jun 2023"]` gives the quarters `["Mar 2023", "Jun 2023"]`: the first cell is skipped |
| `Scraper.GetFinancialDataSection` | stock_recommender.py:206-218 | with the section present, the quarters are the stripped header cells after the first; the data's keys are exactly the labels of rows with at least `len(quarters)+1` cells; the last such row with a label decides its values |
| `Scraper.QuarterLabels` | stock_recommender.py:206-207 | the quarters are the header cells after the first, each stripped, one fewer than the header cells |
| `Scraper.RowValues` | stock_recommender.py:212-215 | a kept row yields exactly one value per quarter, the cleaned cell after the label at that position; later cells are ignored |
| `Scraper.ExtractRows` | stock_recommender.py:209-216 | the dictionary the row loop builds holds, under every key, exactly one value per quarter |
| `Scraper.ExtractKeys` | stock_recommender.py:209-216 | a label is a key of the data exactly when some row long enough to keep carries it; empty labels and all-empty rows are not filtered |
| `Scraper.ExtractLastWins` | stock_recommender.py:210-216 | when several kept rows share a label, the last of them decides the stored values |
| `Scraper.ExtractedValuesClean` | stock_recommender.py:209-216 | every stored label is stripped, and every stored value is `""` or a canonical decimal when no cell the loop cleans (cells `1..len(quarters)` of a kept row) is a percentage |
| `Scraper.ScenarioRows` | stock_recommender.py:210-216 | the row `Sales, 215,000, 218000` under two quarters gives `{"Sales": ["215000", "218000"]}`, and a row one cell short is skipped |
| `Store.UpsertMetric` | stock_recommender.py:263-277 | the quarter loop of one metric leaves the table updated with that metric's writes as described by `Store.MetricWritesSpec` |
| `Store.MetricWritesSpec` | stock_recommender.py:263-277 | the quarter loop of one metric writes exactly the keys `(stock, metric, q)` for which some position with a non-empty value carries `q`, each holding the value at the last such position with the load's industry and category |
| `Store.InsertQuarterly` | stock_recommender.py:260-278 | whatever order the metrics come in, the resulting table is the order-free `Load` |
| `Store.LastWriteSpec` | stock_recommender.py:263-267 | a quarter receives a value exactly when some position with a non-empty value is labelled with it, and the value is the one at the last such position |
| `Store.WritesAddMetric` | stock_recommender.py:262-277 | merging one more metric's writes into the writes of the others gives the writes of all of them |
| `Store.LoadWrites` | stock_recommender.py:263-277 | a key of the loaded stock, a scraped metric and a quarter with a non-empty value is in the table and holds the last such value with the load's industry and category |
| `Store.LoadFrame` | stock_recommender.py:263-277 | keys the load does not write keep their row, or stay absent |
| `Store.LoadIdempotent` | stock_recommender.py:260-278 | loading the same data twice gives the table of loading it once |
| `Store.LoadNoEmpty` | stock_recommender.py:265-267 | a load never stores an empty value |
| `Store.ReloadOverwrites` | stock_recommender.py:268-277 | loading `100` and then `150` for one stock, metric and quarter leaves one row, holding `150` |
| `Order.Dedup` | stock_recommender.py:76-77 | the append-if-absent loop yields a duplicate-free list holding exactly the quarters of the rows |
| `Order.Sort` | stock_recommender.py:80 | `quarters.sort()`, and `sorted(quarters)` at line 115, give a permutation of the input that is ascending in Python's string order |
| `Order.SortDedup` | stock_recommender.py:76-80 | the sorted distinct quarter list is strictly ascending and holds exactly the quarters seen |
| `Order.StrictlySortedUnique` | stock_recommender.py:107-115 | a strictly ascending list is fixed by its elements, so collecting quarters in a list or in a set gives the same sorted list |
| `Views.PivotSpec` | stock_recommender.py:69-86 | the quarter list is strictly ascending and holds exactly the rows' quarters; there is a list for exactly the rows' keys; each list has one entry per quarter; the entry is the value of the last row for that key and quarter, or `""` if there is none |
| `Views.QuarterlyViewOfTable` | stock_recommender.py:57-86 | reading back a stock's rows from the table, the view lists every stored metric and quarter of the stock and at each position the stored value, or `""` where the table has no row |
| `Views.LexicalQuarterOrder` | stock_recommender.py:79-80 | quarters are ordered as text, not as dates: `Mar 2023` comes before `Sep 2022` |
| `Views.SectorViewSpec` | stock_recommender.py:106-120 | the sector view has the pivot's quarters and one list per `stock - metric` label of a pivot key, and each list is the pivot's list of a key with that label |
| `Views.SectorEntry` | stock_recommender.py:108-120 | every label of the sector view holds the list of the last key, in first-appearance order, that renders as that label |
| `Views.SectorLabelInjective` | stock_recommender.py:118 | two keys share a label only if they are equal, when neither stock code contains `-` |
| `Views.SectorLabelCollision` | stock_recommender.py:118 | the `stock - metric` label is not injective in general: the keys `("A", "- B")` and `("A -", "B")` get the same label, so the view keeps only one of them |
| `Views.SectorViewInjective` | stock_recommender.py:117-120 | when no stock code contains `-`, every `(stock, metric)` key keeps its own list under its label |
| `Categories.CategorizeSpec` | emergency_fix.py:137-150 | a name gets category `c` exactly when `c` is the fallback or one of its keywords occurs in the lower-cased name, and no keyword of an category checked earlier does |
| `Categories.LabelsDistinct` | emergency_fix.py:141-150 | the five labels are distinct |
| `Categories.CategorizeIgnoresUpper` | emergency_fix.py:139 | the category does not depend on letter case |
| `Categories.FirstGroupWins` | emergency_fix.py:141-148 | a name with both "profit" and "per share" is Income Statement, and one with both "equity" and "ratio" but no income keyword is Balance Sheet |
| `Categories.NetProfitIsIncome` | emergency_fix.py:141-142 | "Net Profit" is Income Statement |
| `Categories.SalesIsIncome` | emergency_fix.py:141-142 | "Sales" is Income Statement |
| `Categories.EquityIsBalanceSheet` | emergency_fix.py:141-144 | "Equity" has no income keyword and is Balance Sheet |
| `Categories.TotalAssetsIsBalanceSheet` | emergency_fix.py:141-144 | "Total Assets" is Balance Sheet |
| `Categories.RoeIsRatio` | emergency_fix.py:141-146 | "ROE %" is Financial Ratios |
| `Categories.RoceIsRatio` | emergency_fix.py:141-146 | "ROCE %" is Financial Ratios through the keyword "roce", since it does not contain "roe" |
| `Categories.CurrentRatioIsRatio` | emergency_fix.py:141-146 | "Current Ratio" is Financial Ratios |
| `Categories.EpsIsPerShare` | emergency_fix.py:141-148 | "EPS" is Per Share Data |
| `Categories.InterestIsOther` | emergency_fix.py:141-150 | a name with no keyword, such as "Interest", is Other Financial Metrics |
| `Categories.BucketsAdd` | emergency_fix.py:190-194 | one turn of the grouping loop files the metric, with its values, into the bucket of its category and leaves the other buckets alone |
| `Categories.BucketsPartition` | emergency_fix.py:189-194 | after all metrics, each metric sits with its values in the bucket of its own category and in no other, and no bucket is empty |
| `Categories.GroupMetrics` | emergency_fix.py:189-194 | the grouping loop yields that partition: the buckets' keys together are the input metrics, each with unchanged values, under its own category's label |
| `Environment.Missing` | emergency_fix.py:16-21 | the reported variables are exactly the given ones that are unset or empty, never more than were given |
| `Environment.MissingAppend` | emergency_fix.py:16-21 | the report keeps the declared order: checking two lists in turn reports the first's missing variables, then the second's |
| `Environment.CheckEnvironment` | emergency_fix.py:9-23 | the missing list is the required variables with no non-empty value in declared order, and the flag is true exactly when every required variable is set, exactly when the list is empty |
| `Environment.OnlyUserSet` | emergency_fix.py:13-23 | with only the user name set, the password and the account are reported, in that order |
| `Text.Split` | stock_recommender.py:195-196 | `split('›')` gives one more part than the text has separators, no part contains the separator, and joining the parts gives the text back |
| `Text.SplitJoin` | stock_recommender.py:195-196 | splitting a join of separator-free parts gives the parts back |
| `Text.ContainsAt` | emergency_fix.py:141-147 | the substring test holds exactly when the keyword occurs at some position of the name |

## Left out

- Console output is not modelled: the `print` calls of `get_financial_data` (stock_recommender.py:184, 187, 203, the "Quarterly data not found" warning among them) and of `check_environment` (emergency_fix.py:11, 18, 20) write to the console only and change no result.
- HTTP fetching is not modelled: `requests.get`, the cookie header and the status message. The status code is an input.
- BeautifulSoup parsing and the CSS selectors are not modelled. The model starts from the texts of the cells they return.
- Snowflake is not modelled: the connection, table creation, the SQL text and the commit. `MERGE` is modelled only as a map update, and a query only as the rows it returns.
- Flask routing, `render_template`, `json.dumps`, plotly, and the HTML building and file writing of the generated fallback app are not modelled. They are I/O and presentation.
- The percent branch of `clean_value` (stock_recommender.py:165-169) uses float division and `str(float)`. It is the parameter `fraction`, and no property is claimed about its output.
- `Values.CleanValueShape`, `Values.CleanIdempotent`, `Values.ValidEntryOfClean`, `Values.ValidIffNoHoles` and `Scraper.ExtractedValuesClean`: stated only for cells whose normalised text does not end in `%`, because the percent branch is opaque.
- `Text.IsSpace` covers Python's whitespace only up to U+00FF. Higher Unicode spaces are not treated as whitespace by `Strip`.
- `Values.IsDecimal` reads `\d` as the ASCII digits only. Python's Unicode digits are not covered.
- `Values.CleanValueShape`, `Values.CleanIdempotent` and `Scraper.ExtractedValuesClean` do not cover a quirk of the pattern. In Python, the `$` of `^-?\d+(\.\d+)?$` also matches just before a final newline, and the model does not model this. A newline survives the strip at stock_recommender.py:163 when a separator or a closing parenthesis follows it. For `"5\n,"` the source returns `"5\n"`, and for `"(5\n)"` it returns `"-5\n"`. Neither result has the canonical shape. Neither is a fixed point either, because `clean_value("5\n")` is `"5"`. `is_valid` accepts both. A kept row with such a cell stores that value, which is neither `""` nor a canonical decimal. The model returns `""` for such cells, so these properties hold of the model but not of the source on them. `Values.ValidEntryOfClean` still holds in the source on them, since the results are non-empty and valid.
- `Text.Lower` lower-cases ASCII letters only. Other letters are kept, so `categorize_metric` on non-ASCII names is not covered.
- `visualize` (stock_recommender.py:132-155) slices `row[2:7]` of a `SELECT *` row. That depends on the table's column order and has no stateable contract.
- `load_all_data` is a loop of I/O calls. `test_imports` and `test_fallback_data` exercise imports and the fallback data.
- The fallback `quarterly_view` upper-cases the requested stock code and looks it up in `FALLBACK_DATA` (emergency_fix.py:171-186). Only its bucketing loop is modelled. The eight metric names of `FALLBACK_DATA` (emergency_fix.py:96-103) are worked cases of the categoriser, and so is "Interest", which comes from `METRIC_CATEGORIES` in stock_recommender.py.
- `METRIC_CATEGORIES` is display metadata passed to templates and is not modelled. `STOCKS` is passed to templates too, and it also drives the loop of `load_all_data` (stock_recommender.py:47-48), which is left out as I/O above. The model uses the stock list only in the assumption, in `Views.SectorViewInjective`, that no stock code contains `-`. That holds for every code in stock_recommender.py:20-24.
- Dictionary iteration order is not modelled. `Store.InsertQuarterly` takes the metrics in an arbitrary order and proves the result does not depend on it. `Views.SectorView` follows first-appearance order, which decides which key wins when two keys share a label.

Behaviour of the code worth knowing:
- The row extractor does not drop rows with an empty metric label or with only empty values (`Scraper.ExtractKeys`).
- An exception raised by `requests.get` propagates.
- Only the `section#quarters` table is extracted.
- The categoriser is a case-insensitive substring test with five labels. It puts "Interest" in Other Financial Metrics, although `METRIC_CATEGORIES` lists it under Income Statement (`Categories.InterestIsOther`).
- The quarter lists are sorted as text, although the comment calls the sort chronological (`Views.LexicalQuarterOrder`).

=== FILE: categories.dfy ===
/** The metric categoriser of emergency_fix.py, `categorize_metric`, and the
    loop of its fallback `quarterly_view` that buckets a stock's metrics by
    category. */
module Categories {
  import opened Text

  /** The five categories `categorize_metric` can return. */
  datatype Category = IncomeStatement | BalanceSheet | FinancialRatios | PerShareData | OtherMetrics
  {
    /** The string the source returns for the category. */
    function Label(): string {
      match this
      case IncomeStatement => "Income Statement"
      case BalanceSheet => "Balance Sheet"
      case FinancialRatios => "Financial Ratios"
      case PerShareData => "Per Share Data"
      case OtherMetrics => "Other Financial Metrics"
    }

    /** The position of the category's test in the chain of `elif`s. */
    function Rank(): nat {
      match this
      case IncomeStatement => 0
      case BalanceSheet => 1
      case FinancialRatios => 2
      case PerShareData => 3
      case OtherMetrics => 4
    }

    /** The keywords of the category's test; the last category has none and
        is the fallback. */
    function Words(): seq<string> {
      match this
      case IncomeStatement => ["sales", "revenue", "profit", "income"]
      case BalanceSheet => ["assets", "equity", "liabilities"]
      case FinancialRatios => ["roe", "roce", "ratio"]
      case PerShareData => ["eps", "per share"]
      case OtherMetrics => []
    }
  }

  /** `any(word in s for word in words)`. */
  predicate AnyIn(words: seq<string>, s: string) {
    AnyFrom(words, s, 0)
  }

  /** Some keyword from position `i` of `words` on occurs in `s`. */
  predicate AnyFrom(words: seq<string>, s: string, i: nat)
    decreases |words| - i
  {
    i < |words| && (Contains(s, words[i]) || AnyFrom(words, s, i + 1))
  }

  /** `categorize_metric(metric_name)`: the first category, in the order of
      the source's tests, one of whose keywords occurs in the lower-cased
      name. */
  function Categorize(name: string): Category {
    CategorizeLowered(Lower(name))
  }

  /** The chain of tests on the already lower-cased name. */
  function CategorizeLowered(n: string): Category {
    if AnyIn(IncomeStatement.Words(), n) then IncomeStatement
    else if AnyIn(BalanceSheet.Words(), n) then BalanceSheet
    else if AnyIn(FinancialRatios.Words(), n) then FinancialRatios
    else if AnyIn(PerShareData.Words(), n) then PerShareData
    else OtherMetrics
  }

  /** A name falls in category `c` exactly when `c` is the fallback or one of
      its keywords occurs in the lower-cased name, and no keyword of a
      category checked before `c` does. */
  lemma CategorizeSpec(name: string, c: Category)
    ensures Categorize(name) == c <==>
              (c == OtherMetrics || AnyIn(c.Words(), Lower(name)))
              && forall d: Category :: d.Rank() < c.Rank() ==> !AnyIn(d.Words(), Lower(name))
  {
    var n := Lower(name);
    assert IncomeStatement.Rank() < BalanceSheet.Rank() < FinancialRatios.Rank()
           < PerShareData.Rank() < OtherMetrics.Rank();
    if Categorize(name) == c {
      forall d: Category | d.Rank() < c.Rank() ensures !AnyIn(d.Words(), n) {
        assert d.Rank() < Categorize(name).Rank();
      }
    }
  }

  /** The five labels are distinct, so a label names one category. */
  lemma LabelsDistinct(c: Category, d: Category)
    ensures c.Label() == d.Label() <==> c == d
  {
    if c != d {
      assert c.Label()[0] != d.Label()[0];
    }
  }

  /** The categoriser does not see letter case. */
  lemma CategorizeIgnoresUpper(name: string)
    ensures Categorize(Upper(name)) == Categorize(name)
  {
    LowerOfUpper(name);
  }

  /** `word` occurs in `s`, so every list containing `word` has a keyword in
      `s`. */
  lemma AnyInOf(words: seq<string>, s: string, word: string)
    requires word in words && Contains(s, word)
    ensures AnyIn(words, s)
  {
    var k :| 0 <= k < |words| && words[k] == word;
    AnyFromOf(words, s, k, 0);
  }

  lemma {:induction false} AnyFromOf(words: seq<string>, s: string, k: nat, i: nat)
    requires i <= k < |words| && Contains(s, words[k])
    ensures AnyFrom(words, s, i)
    decreases k - i
  {
    if i < k {
      AnyFromOf(words, s, k, i + 1);
    }
  }

  /** A name containing both an income keyword and a per-share keyword is an
      income-statement metric, and one containing both a balance-sheet
      keyword and a ratio keyword is a balance-sheet metric. */
  lemma FirstGroupWins(name: string)
    ensures Contains(Lower(name), "profit") && Contains(Lower(name), "per share") ==>
              Categorize(name) == IncomeStatement
    ensures (Contains(Lower(name), "equity") && Contains(Lower(name), "ratio")
             && !AnyIn(IncomeStatement.Words(), Lower(name))) ==> Categorize(name) == BalanceSheet
  {
    if Contains(Lower(name), "profit") {
      AnyInOf(IncomeStatement.Words(), Lower(name), "profit");
    }
    if Contains(Lower(name), "equity") {
      AnyInOf(BalanceSheet.Words(), Lower(name), "equity");
    }
  }

  // ---------------------------------------------------------------------------
  // Bucketing a stock's metrics

  /** The buckets the loop has built after the metrics in `done`: per
      category label, the metrics of that category with their values. */
  function Buckets(data: map<string, seq<string>>, done: set<string>): map<string, map<string, seq<string>>>
  {
    map c | c in LabelsOf(data, done)
      :: map m | m in done && m in data && Categorize(m).Label() == c :: data[m]
  }

  /** The labels of the categories of the metrics in `done`. */
  function LabelsOf(data: map<string, seq<string>>, done: set<string>): set<string> {
    set m | m in done && m in data :: Categorize(m).Label()
  }

  /** The buckets after all metrics partition the metrics by category. */
  lemma BucketsPartition(data: map<string, seq<string>>)
    ensures forall m :: m in data ==> Categorize(m).Label() in Buckets(data, data.Keys)
                                      && m in Buckets(data, data.Keys)[Categorize(m).Label()]
                                      && Buckets(data, data.Keys)[Categorize(m).Label()][m] == data[m]
    ensures forall c, m :: c in Buckets(data, data.Keys) && m in Buckets(data, data.Keys)[c] ==>
              m in data && c == Categorize(m).Label()
    ensures forall c :: c in Buckets(data, data.Keys) ==> Buckets(data, data.Keys)[c].Keys != {}
  {
    var b := Buckets(data, data.Keys);
    forall c | c in b ensures b[c].Keys != {} {
      var m :| m in data.Keys && Categorize(m).Label() == c;
      assert m in b[c];
    }
  }

  /** One more turn of the loop files one more metric in its bucket. */
  lemma BucketsAdd(data: map<string, seq<string>>, done: set<string>, m: string)
    requires m in data && m !in done
    ensures var b := Buckets(data, done);
            var c := Categorize(m).Label();
            Buckets(data, done + {m}) == b[c := (if c in b then b[c] else map[])[m := data[m]]]
  {
    var b := Buckets(data, done);
    var c := Categorize(m).Label();
    var b' := Buckets(data, done + {m});
    var e := b[c := (if c in b then b[c] else map[])[m := data[m]]];
    assert b'.Keys == e.Keys by {
      assert LabelsOf(data, done + {m}) == LabelsOf(data, done) + {c};
    }
    forall d | d in e ensures b'[d] == e[d] {
      if d == c {
        BucketsAddOwn(data, done, m);
      } else {
        BucketsAddOther(data, done, m, d);
      }
    }
  }

  /** The bucket of the new metric's category gains the new metric. */
  lemma BucketsAddOwn(data: map<string, seq<string>>, done: set<string>, m: string)
    requires m in data && m !in done
    ensures var b := Buckets(data, done);
            var c := Categorize(m).Label();
            c in Buckets(data, done + {m})
            && Buckets(data, done + {m})[c] == (if c in b then b[c] else map[])[m := data[m]]
  {
    var b := Buckets(data, done);
    var c := Categorize(m).Label();
    assert c in LabelsOf(data, done + {m});
    var e := (if c in b then b[c] else map[])[m := data[m]];
    assert Buckets(data, done + {m})[c].Keys == e.Keys;
  }

  /** The other buckets are left as they were. */
  lemma BucketsAddOther(data: map<string, seq<string>>, done: set<string>, m: string, d: string)
    requires m in data && m !in done
    requires d != Categorize(m).Label() && d in Buckets(data, done)
    ensures d in Buckets(data, done + {m}) && Buckets(data, done + {m})[d] == Buckets(data, done)[d]
  {
    assert d in LabelsOf(data, done + {m});
    assert Buckets(data, done + {m})[d].Keys == Buckets(data, done)[d].Keys;
  }

  /** The loop of the fallback `quarterly_view` that files every metric of a
      stock under its category: each metric lands, with its values, in the
      bucket of its own category and in no other, every bucket holds only
      metrics of the stock, and no bucket is empty. */
  method GroupMetrics(data: map<string, seq<string>>) returns (r: map<string, map<string, seq<string>>>)
    ensures r == Buckets(data, data.Keys)
    ensures forall m :: m in data ==> Categorize(m).Label() in r && m in r[Categorize(m).Label()]
                                      && r[Categorize(m).Label()][m] == data[m]
    ensures forall c, m :: c in r && m in r[c] ==> m in data && c == Categorize(m).Label()
    ensures forall c :: c in r ==> r[c].Keys != {}
  {
    r := map[];
    var todo := data.Keys;
    ghost var done: set<string> := {};
    while todo != {}
      invariant todo !! done && todo + done == data.Keys
      invariant r == Buckets(data, done)
      decreases |todo|
    {
      var metric :| metric in todo;
      var category := Categorize(metric).Label();
      BucketsAdd(data, done, metric);
      var bucket := if category in r then r[category] else map[];
      r := r[category := bucket[metric := data[metric]]];
      todo := todo - {metric};
      done := done + {metric};
    }
    BucketsPartition(data);
  }

  // ---------------------------------------------------------------------------
  // Metric names of the fallback data

  /** A keyword with a character that `s` lacks does not occur in `s`. */
  lemma AbsentChar(s: string, w: string, k: nat)
    requires k < |w| && w[k] !in s
    ensures !Contains(s, w)
  {
    ContainsAt(s, w);
  }

  /** A keyword with two neighbouring characters that never stand next to
      each other in `s` does not occur in `s`. */
  lemma AbsentPair(s: string, w: string, k: nat)
    requires k + 1 < |w|
    requires forall i :: 0 <= i < |s| - 1 ==> s[i] != w[k] || s[i + 1] != w[k + 1]
    ensures !Contains(s, w)
  {
    ContainsAt(s, w);
    if Contains(s, w) {
      var i :| OccursAt(s, w, i);
      OccursAtChars(s, w, i);
    }
  }

  /** No keyword of `words` occurs in `s` when, for each keyword, `ks` picks
      one of its characters that `s` lacks. */
  lemma NoneIn(words: seq<string>, s: string, ks: seq<nat>)
    requires |ks| == |words|
    requires forall j :: 0 <= j < |words| ==> ks[j] < |words[j]| && words[j][ks[j]] !in s
    ensures !AnyIn(words, s)
  {
    NoneFrom(words, s, ks, 0);
  }

  lemma {:induction false} NoneFrom(words: seq<string>, s: string, ks: seq<nat>, i: nat)
    requires |ks| == |words|
    requires forall j :: i <= j < |words| ==> ks[j] < |words[j]| && words[j][ks[j]] !in s
    ensures !AnyFrom(words, s, i)
    decreases |words| - i
  {
    if i < |words| {
      AbsentChar(s, words[i], ks[i]);
      NoneFrom(words, s, ks, i + 1);
    }
  }

  // Each worked case below lower-cases the name in a lemma of its own and
  // rules out the keyword groups checked before its category one group at a
  // time, which keeps the solver from evaluating the whole chain on literal
  // text at once.

  lemma NetProfitIsIncome()
    ensures Categorize("Net Profit") == IncomeStatement
  {
    assert Lower("Net Profit") == "net profit";
    assert Contains("net profit", "profit");
    AnyInOf(IncomeStatement.Words(), "net profit", "profit");
  }

  lemma SalesIsIncome()
    ensures Categorize("Sales") == IncomeStatement
  {
    assert Lower("Sales") == "sales";
    assert Contains("sales", "sales");
    AnyInOf(IncomeStatement.Words(), "sales", "sales");
  }

  lemma EquityIsBalanceSheet()
    ensures Categorize("Equity") == BalanceSheet
  {
    assert Lower("Equity") == "equity";
    NoIncomeInEquity();
    assert Contains("equity", "equity");
    AnyInOf(BalanceSheet.Words(), "equity", "equity");
  }

  lemma TotalAssetsIsBalanceSheet()
    ensures Categorize("Total Assets") == BalanceSheet
  {
    assert Lower("Total Assets") == "total assets";
    NoIncomeInTotalAssets();
    assert Contains("total assets", "assets");
    AnyInOf(BalanceSheet.Words(), "total assets", "assets");
  }

  lemma RoeIsRatio()
    ensures Categorize("ROE %") == FinancialRatios
  {
    assert Lower("ROE %") == "roe %";
    NoIncomeInRoe();
    NoBalanceInRoe();
    assert Contains("roe %", "roe");
    AnyInOf(FinancialRatios.Words(), "roe %", "roe");
  }

  /** "roce %" does not contain "roe"; the second keyword of the group
      matches. */
  lemma RoceIsRatio()
    ensures Categorize("ROCE %") == FinancialRatios
  {
    assert Lower("ROCE %") == "roce %";
    NoIncomeInRoce();
    NoBalanceInRoce();
    assert Contains("roce %", "roce");
    AnyInOf(FinancialRatios.Words(), "roce %", "roce");
  }

  lemma CurrentRatioIsRatio()
    ensures Categorize("Current Ratio") == FinancialRatios
  {
    assert Lower("Current Ratio") == "current ratio";
    NoIncomeInCurrentRatio();
    NoBalanceInCurrentRatio();
    RatioInCurrentRatio();
    AnyInOf(FinancialRatios.Words(), "current ratio", "ratio");
  }

  lemma EpsIsPerShare()
    ensures Categorize("EPS") == PerShareData
  {
    assert Lower("EPS") == "eps";
    NoIncomeInEps();
    NoBalanceInEps();
    NoRatioInEps();
    assert Contains("eps", "eps");
    AnyInOf(PerShareData.Words(), "eps", "eps");
  }

  /** A name with none of the keywords falls through to the last category,
      "Interest" among them, although the display metadata of
      stock_recommender.py lists it under "Income Statement". */
  lemma InterestIsOther()
    ensures Categorize("Interest") == OtherMetrics
  {
    assert Lower("Interest") == "interest";
    NoIncomeInInterest();
    NoBalanceInInterest();
    NoRatioInInterest();
    NoPerShareInInterest();
  }

  lemma RatioInCurrentRatio() ensures Contains("current ratio", "ratio") { }
  lemma NoSalesInTotalAssets() ensures !Contains("total assets", "sales") {
    AbsentPair("total assets", "sales", 0);
  }
  lemma NoIncomeInTotalAssets() ensures !AnyIn(IncomeStatement.Words(), "total assets") {
    NoSalesInTotalAssets();
    NoneFrom(IncomeStatement.Words(), "total assets", [0, 0, 0, 0], 1);
  }
  lemma NoIncomeInRoe() ensures !AnyIn(IncomeStatement.Words(), "roe %") {
    NoneIn(IncomeStatement.Words(), "roe %", [0, 2, 0, 0]);
  }
  lemma NoBalanceInRoe() ensures !AnyIn(BalanceSheet.Words(), "roe %") {
    NoneIn(BalanceSheet.Words(), "roe %", [0, 1, 0]);
  }
  lemma NoIncomeInEquity() ensures !AnyIn(IncomeStatement.Words(), "equity") {
    NoneIn(IncomeStatement.Words(), "equity", [0, 0, 0, 1]);
  }
  lemma NoIncomeInRoce() ensures !AnyIn(IncomeStatement.Words(), "roce %") {
    NoneIn(IncomeStatement.Words(), "roce %", [0, 4, 0, 0]);
  }
  lemma NoBalanceInRoce() ensures !AnyIn(BalanceSheet.Words(), "roce %") {
    NoneIn(BalanceSheet.Words(), "roce %", [1, 1, 0]);
  }
  lemma NoIncomeInCurrentRatio() ensures !AnyIn(IncomeStatement.Words(), "current ratio") {
    NoneIn(IncomeStatement.Words(), "current ratio", [0, 2, 0, 4]);
  }
  lemma NoBalanceInCurrentRatio() ensures !AnyIn(BalanceSheet.Words(), "current ratio") {
    NoneIn(BalanceSheet.Words(), "current ratio", [1, 1, 0]);
  }
  lemma NoIncomeInEps() ensures !AnyIn(IncomeStatement.Words(), "eps") {
    NoneIn(IncomeStatement.Words(), "eps", [1, 0, 1, 0]);
  }
  lemma NoBalanceInEps() ensures !AnyIn(BalanceSheet.Words(), "eps") {
    NoneIn(BalanceSheet.Words(), "eps", [0, 1, 0]);
  }
  lemma NoRatioInEps() ensures !AnyIn(FinancialRatios.Words(), "eps") {
    NoneIn(FinancialRatios.Words(), "eps", [0, 0, 0]);
  }
  lemma NoIncomeInInterest() ensures !AnyIn(IncomeStatement.Words(), "interest") {
    NoneIn(IncomeStatement.Words(), "interest", [1, 2, 0, 2]);
  }
  lemma NoBalanceInInterest() ensures !AnyIn(BalanceSheet.Words(), "interest") {
    NoneIn(BalanceSheet.Words(), "interest", [0, 1, 0]);
  }
  lemma NoRatioInInterest() ensures !AnyIn(FinancialRatios.Words(), "interest") {
    NoneIn(FinancialRatios.Words(), "interest", [1, 1, 1]);
  }
  lemma NoPerShareInInterest() ensures !AnyIn(PerShareData.Words(), "interest") {
    NoneIn(PerShareData.Words(), "interest", [1, 0]);
  }
}

=== FILE: environment.dfy ===
/** `check_environment` of emergency_fix.py with the process environment
    passed in as a map from variable names to values; the console messages
    are left out. */
module Environment {

  /** The variables the Snowflake connection needs, in the order they are
      checked. */
  const Required: seq<string> := ["SNOWFLAKE_USER", "SNOWFLAKE_PASSWORD", "SNOWFLAKE_ACCOUNT"]

  /** `os.getenv(v)` is truthy: the variable is defined and not empty. */
  predicate IsSet(env: map<string, string>, v: string) {
    v in env && env[v] != ""
  }

  /** The variables of `vars` that are not set, in the order of `vars`. */
  function Missing(env: map<string, string>, vars: seq<string>): (r: seq<string>)
    ensures |r| <= |vars|
    ensures forall v :: v in r <==> v in vars && !IsSet(env, v)
  {
    if |vars| == 0 then []
    else
      var m := Missing(env, vars[..|vars| - 1]);
      assert forall v :: v in vars <==> v in vars[..|vars| - 1] || v == vars[|vars| - 1];
      if IsSet(env, vars[|vars| - 1]) then m else m + [vars[|vars| - 1]]
  }

  /** Checking two lists one after the other reports the missing variables
      of the first, then those of the second: the report keeps the declared
      order. */
  lemma {:induction false} MissingAppend(env: map<string, string>, a: seq<string>, b: seq<string>)
    ensures Missing(env, a + b) == Missing(env, a) + Missing(env, b)
    decreases |b|
  {
    if |b| > 0 {
      var b' := b[..|b| - 1];
      assert (a + b)[..|a + b| - 1] == a + b';
      MissingAppend(env, a, b');
    } else {
      assert a + b == a;
    }
  }

  /** A single variable is reported exactly when it is not set. */
  lemma MissingOne(env: map<string, string>, v: string)
    ensures Missing(env, [v]) == if IsSet(env, v) then [] else [v]
  {
    assert [v][..0] == [];
  }

  /** `check_environment()`: the required variables that are not set, in
      declared order, and whether there are none. */
  method CheckEnvironment(env: map<string, string>) returns (ok: bool, missing: seq<string>)
    ensures missing == Missing(env, Required)
    ensures forall v :: v in missing <==> v in Required && !IsSet(env, v)
    ensures ok <==> forall v :: v in Required ==> IsSet(env, v)
    ensures ok <==> missing == []
  {
    missing := [];
    var i := 0;
    while i < |Required|
      invariant 0 <= i <= |Required|
      invariant missing == Missing(env, Required[..i])
    {
      var v := Required[i];
      MissingAppend(env, Required[..i], [v]);
      MissingOne(env, v);
      assert Required[..i + 1] == Required[..i] + [v];
      if !IsSet(env, v) {
        missing := missing + [v];
      }
      i := i + 1;
    }
    assert Required[..i] == Required;
    ok := |missing| == 0;
    if !ok {
      assert missing[0] in missing;
    }
  }

  /** With only the user name set, the password and the account are
      reported, in that order. */
  lemma OnlyUserSet()
    ensures Missing(map["SNOWFLAKE_USER" := "me", "SNOWFLAKE_PASSWORD" := ""], Required)
         == ["SNOWFLAKE_PASSWORD", "SNOWFLAKE_ACCOUNT"]
  {
    var env := map["SNOWFLAKE_USER" := "me", "SNOWFLAKE_PASSWORD" := ""];
    assert Required[..2][..1] == ["SNOWFLAKE_USER"];
    assert Required[..2] == ["SNOWFLAKE_USER", "SNOWFLAKE_PASSWORD"];
    assert Required[..1] == ["SNOWFLAKE_USER"];
    assert Missing(env, []) == [];
  }
}

=== FILE: order.dfy ===
/** Python's ordering of strings (code point by code point, a proper prefix
    first) and the two list operations the views apply to quarter labels:
    collecting the distinct labels and sorting them. */
module Order {

  /** `a < b` on Python strings. Dafny's own `<` on sequences means "proper
      prefix", which is not the same order. */
  predicate LexLess(a: string, b: string) {
    if |b| == 0 then false
    else if |a| == 0 then true
    else if a[0] != b[0] then a[0] < b[0]
    else LexLess(a[1..], b[1..])
  }

  lemma {:induction false} LexLessIrreflexive(a: string)
    ensures !LexLess(a, a)
    decreases |a|
  {
    if |a| > 0 {
      LexLessIrreflexive(a[1..]);
    }
  }

  lemma {:induction false} LexLessTransitive(a: string, b: string, c: string)
    requires LexLess(a, b) && LexLess(b, c)
    ensures LexLess(a, c)
    decreases |a|
  {
    if |a| > 0 && a[0] == b[0] && b[0] == c[0] {
      LexLessTransitive(a[1..], b[1..], c[1..]);
    }
  }

  /** Any two different strings are ordered one way or the other. */
  lemma {:induction false} LexLessTotal(a: string, b: string)
    requires a != b
    ensures LexLess(a, b) || LexLess(b, a)
    decreases |a|
  {
    if |a| > 0 && |b| > 0 && a[0] == b[0] {
      assert a == [a[0]] + a[1..] && b == [b[0]] + b[1..];
      LexLessTotal(a[1..], b[1..]);
    }
  }

  /** Ascending order as `list.sort()` leaves it. */
  predicate Sorted(s: seq<string>) {
    forall i, j :: 0 <= i < j < |s| ==> !LexLess(s[j], s[i])
  }

  /** Strictly ascending: sorted and duplicate-free. */
  predicate StrictlySorted(s: seq<string>) {
    forall i, j :: 0 <= i < j < |s| ==> LexLess(s[i], s[j])
  }

  predicate Distinct<T(==)>(s: seq<T>) {
    forall i, j :: 0 <= i < j < |s| ==> s[i] != s[j]
  }

  /** The list built by `if x not in xs: xs.append(x)` over `s`: every
      element once, in order of first appearance. */
  function Dedup<T(==,!new)>(s: seq<T>): (r: seq<T>)
    ensures Distinct(r)
    ensures forall x :: x in r <==> x in s
  {
    if |s| == 0 then []
    else
      var d := Dedup(s[..|s| - 1]);
      assert forall x :: x in s <==> x in s[..|s| - 1] || x == s[|s| - 1];
      if s[|s| - 1] in d then d else d + [s[|s| - 1]]
  }

  /** Places `x` in front of the first element that is not below it. */
  function Insert(x: string, s: seq<string>): (r: seq<string>)
    requires Sorted(s)
    ensures multiset(r) == multiset(s) + multiset{x}
    ensures Sorted(r)
  {
    if |s| == 0 then [x]
    else if !LexLess(s[0], x) then
      ConsSorted(x, s);
      [x] + s
    else
      var r' := Insert(x, s[1..]);
      assert s == [s[0]] + s[1..];
      ConsSortedAfter(s[0], x, s[1..], r');
      [s[0]] + r'
  }

  /** A string not above the head of a sorted list may go in front of it. */
  lemma ConsSorted(x: string, s: seq<string>)
    requires Sorted(s) && |s| > 0 && !LexLess(s[0], x)
    ensures Sorted([x] + s)
  {
    forall j | 0 < j < |s| + 1
      ensures !LexLess(([x] + s)[j], x)
    {
      var e := s[j - 1];
      if LexLess(e, x) && e != s[0] {
        LexLessTotal(s[0], e);
        LexLessTransitive(s[0], e, x);
      }
    }
  }

  /** The head of a sorted list stays in front when an element above it is
      inserted into the tail. */
  lemma ConsSortedAfter(h: string, x: string, t: seq<string>, r: seq<string>)
    requires Sorted([h] + t) && LexLess(h, x)
    requires Sorted(r) && multiset(r) == multiset(t) + multiset{x}
    ensures Sorted([h] + r)
  {
    forall j | 0 < j < |r| + 1
      ensures !LexLess(([h] + r)[j], h)
    {
      var e := r[j - 1];
      assert ([h] + r)[j] == e;
      assert e in multiset(r);
      if e == x {
        if LexLess(x, h) {
          LexLessTransitive(h, x, h);
          LexLessIrreflexive(h);
        }
      } else {
        assert e in multiset(t);
        var k :| 0 <= k < |t| && t[k] == e;
        assert ([h] + t)[k + 1] == e && ([h] + t)[0] == h;
        assert !LexLess(([h] + t)[k + 1], ([h] + t)[0]);
      }
    }
  }

  /** Insertion sort, standing for Python's `sorted` / `list.sort()` on
      strings. */
  function Sort(s: seq<string>): (r: seq<string>)
    ensures multiset(r) == multiset(s)
    ensures Sorted(r)
  {
    if |s| == 0 then []
    else
      assert s == [s[0]] + s[1..];
      Insert(s[0], Sort(s[1..]))
  }

  /** Sorting the distinct elements of `s` gives a strictly ascending list
      holding exactly the elements of `s`. */
  lemma SortDedup(s: seq<string>)
    ensures StrictlySorted(Sort(Dedup(s)))
    ensures forall x :: x in Sort(Dedup(s)) <==> x in s
  {
    var d := Dedup(s);
    var r := Sort(d);
    assert forall x :: x in r <==> x in multiset(r);
    assert forall x :: x in d <==> x in multiset(d);
    forall x
      ensures multiset(r)[x] <= 1
    {
      DistinctCount(d, x);
    }
    CountDistinct(r);
    forall i, j | 0 <= i < j < |r|
      ensures LexLess(r[i], r[j])
    {
      LexLessTotal(r[i], r[j]);
    }
  }

  /** Every element of a duplicate-free list occurs in it at most once. */
  lemma {:induction false} DistinctCount(s: seq<string>, x: string)
    requires Distinct(s)
    ensures multiset(s)[x] <= 1
    decreases |s|
  {
    if |s| > 0 {
      assert s == [s[0]] + s[1..];
      DistinctCount(s[1..], x);
      if s[0] == x {
        assert x !in s[1..];
      }
    }
  }

  /** A list in which every element occurs at most once is duplicate-free. */
  lemma CountDistinct(s: seq<string>)
    requires forall x :: multiset(s)[x] <= 1
    ensures Distinct(s)
  {
    forall i, j | 0 <= i < j < |s|
      ensures s[i] != s[j]
    {
      var x := s[j];
      assert s == s[..j] + s[j..];
      assert multiset(s)[x] == multiset(s[..j])[x] + multiset(s[j..])[x];
      assert s[j..][0] == x;
      assert s[..j][i] == s[i];
    }
  }

  /** The first element of a strictly ascending list is below all the
      others. */
  lemma HeadIsLeast(a: seq<string>, x: string)
    requires StrictlySorted(a) && |a| > 0
    requires x in a && x != a[0]
    ensures LexLess(a[0], x)
  {
  }

  /** A strictly ascending list is fixed by the set of its elements: however
      the labels were gathered, the sorted distinct list is the same. */
  lemma {:induction false} StrictlySortedUnique(a: seq<string>, b: seq<string>)
    requires StrictlySorted(a) && StrictlySorted(b)
    requires forall x :: x in a <==> x in b
    ensures a == b
    decreases |a|
  {
    if |a| > 0 { assert a[0] in b; }
    if |b| > 0 { assert b[0] in a; }
    if |a| > 0 {
      if a[0] != b[0] {
        assert a[0] in b && b[0] in a;
        HeadIsLeast(a, b[0]);
        HeadIsLeast(b, a[0]);
        LexLessTransitive(a[0], b[0], a[0]);
        LexLessIrreflexive(a[0]);
        assert false;
      }
      forall x
        ensures x in a[1..] <==> x in b[1..]
      {
        if x in a[1..] {
          var k :| 1 <= k < |a| && a[k] == x;
          assert LexLess(a[0], x);
          if x == b[0] { LexLessIrreflexive(x); }
          assert x in b;
        }
        if x in b[1..] {
          var k :| 1 <= k < |b| && b[k] == x;
          assert LexLess(b[0], x);
          if x == a[0] { LexLessIrreflexive(x); }
          assert x in a;
        }
      }
      StrictlySortedUnique(a[1..], b[1..]);
      assert a == [a[0]] + a[1..] && b == [b[0]] + b[1..];
    }
  }
}

=== FILE: scraper.dfy ===
/** The page-to-record step of `get_financial_data` in stock_recommender.py:
    the breadcrumb split into category and industry, the quarter labels taken
    from the header row of the quarterly-results section, and the metric rows
    of its body. The HTTP request and the HTML parser are outside the model:
    the page arrives as the status code and the text of the cells the CSS
    selectors would return. */
module Scraper {
  import opened Wrappers
  import opened Text
  import opened Values

  /** The quarterly-results section: the texts of the `thead tr th` cells and,
      per `tbody tr`, the texts of its `td` cells. */
  datatype Section = Section(header: seq<string>, body: seq<seq<string>>)

  /** What the parser finds on the page: the text of the `.breadcrumb` element
      and the `section#quarters` element, either of which may be missing. */
  datatype Page = Page(breadcrumb: Option<string>, quarters: Option<Section>)

  datatype Response = Response(status: int, page: Page)

  /** The four values `get_financial_data` returns. */
  datatype Financials = Financials(
    data: map<string, seq<string>>,
    quarters: seq<string>,
    category: string,
    industry: string)

  /** The breadcrumb separator, U+203A SINGLE RIGHT-POINTING ANGLE QUOTATION
      MARK. */
  const Chevron: char := '\U{203A}'

  // ---------------------------------------------------------------------------
  // Breadcrumb

  /** The category and industry of a company: the second and third
      chevron-separated parts of the stripped breadcrumb, each stripped. A
      missing breadcrumb or one with fewer than three parts gives two empty
      strings; nothing here can fail. */
  function Classify(breadcrumb: Option<string>): (r: (string, string))
    ensures breadcrumb.None? ==> r == ("", "")
    ensures Chevron !in r.0 && Chevron !in r.1
    ensures |r.0| == 0 || (!IsSpace(r.0[0]) && !IsSpace(r.0[|r.0| - 1]))
    ensures |r.1| == 0 || (!IsSpace(r.1[0]) && !IsSpace(r.1[|r.1| - 1]))
  {
    match breadcrumb
    case None => ("", "")
    case Some(text) =>
      var parts := Split(Strip(text), Chevron);
      if |parts| >= 3 then
        StripShape(parts[1]);
        StripShape(parts[2]);
        (Strip(parts[1]), Strip(parts[2]))
      else ("", "")
  }

  lemma StripLeftKeeps(s: string, c: char)
    requires c !in s
    ensures c !in StripLeft(s)
  {
    StripLeftSuffix(s);
  }

  lemma StripRightKeeps(s: string, c: char)
    requires c !in s
    ensures c !in StripRight(s)
  {
    StripRightPrefix(s);
  }

  /** Stripping after a right strip is plain stripping. */
  lemma StripAfterStripRight(s: string)
    ensures Strip(StripRight(s)) == Strip(s)
  {
    StripRightPrefix(s);
    StripRightOfNonSpace(StripRight(s));
  }

  /** Stripping a chevron-joined breadcrumb only trims the outer ends of its
      first and last part, so splitting it again gives the parts back with
      those two ends trimmed. */
  lemma SplitStrippedJoin(parts: seq<string>)
    requires |parts| >= 2
    requires forall i :: 0 <= i < |parts| ==> Chevron !in parts[i]
    ensures Split(Strip(Join(parts, Chevron)), Chevron)
         == parts[|parts| - 1 := StripRight(parts[|parts| - 1])][0 := StripLeft(parts[0])]
  {
    var n := |parts|;
    StripJoin(parts, Chevron);
    var q := parts[n - 1 := StripRight(parts[n - 1])][0 := StripLeft(parts[0])];
    StripRightKeeps(parts[n - 1], Chevron);
    StripLeftKeeps(parts[0], Chevron);
    assert forall i :: 0 <= i < |q| ==> Chevron !in q[i];
    SplitJoin(q, Chevron);
  }

  /** A breadcrumb of at least three chevron-separated parts yields its second
      and third part, stripped, whatever surrounds them. */
  lemma ClassifyParts(parts: seq<string>)
    requires |parts| >= 3
    requires forall i :: 0 <= i < |parts| ==> Chevron !in parts[i]
    ensures Classify(Some(Join(parts, Chevron))) == (Strip(parts[1]), Strip(parts[2]))
  {
    var n := |parts|;
    var q := parts[n - 1 := StripRight(parts[n - 1])][0 := StripLeft(parts[0])];
    SplitStrippedJoin(parts);
    assert q[1] == parts[1];
    if n == 3 {
      StripAfterStripRight(parts[2]);
    } else {
      assert q[2] == parts[2];
    }
  }

  /** A breadcrumb of one or two parts yields two empty strings. */
  lemma ClassifyTooShort(parts: seq<string>)
    requires 1 <= |parts| <= 2
    requires forall i :: 0 <= i < |parts| ==> Chevron !in parts[i]
    ensures Classify(Some(Join(parts, Chevron))) == ("", "")
  {
    if |parts| == 1 {
      StripShape(parts[0]);
      SplitWithout(Strip(parts[0]), Chevron);
    } else {
      SplitStrippedJoin(parts);
    }
  }

  // ---------------------------------------------------------------------------
  // Quarter labels and metric rows

  /** The header cells after the first, stripped. */
  function QuarterLabels(header: seq<string>): (r: seq<string>)
    ensures |r| == if |header| == 0 then 0 else |header| - 1
    ensures forall i :: 0 <= i < |r| ==> r[i] == Strip(header[i + 1])
  {
    if |header| == 0 then []
    else seq(|header| - 1, i requires 0 <= i < |header| - 1 => Strip(header[i + 1]))
  }

  /** A body row takes part only if it has a label cell and one cell per
      quarter; shorter rows are skipped. */
  predicate Kept(row: seq<string>, width: nat) {
    |row| >= width + 1
  }

  /** The metric name of a row: its first cell, stripped. */
  function Label(row: seq<string>): string
    requires |row| > 0
  {
    Strip(row[0])
  }

  /** The cleaned values of a kept row: one per quarter, cells past the last
      quarter ignored. */
  function RowValues(row: seq<string>, width: nat, fraction: string -> string): (r: seq<string>)
    requires Kept(row, width)
    ensures |r| == width
    ensures forall i :: 0 <= i < width ==> r[i] == CleanValue(row[i + 1], fraction)
  {
    CleanAll(row[1..width + 1], fraction)
  }

  /** No later kept row of `body` carries the label of row `j`. */
  predicate LastWithLabel(body: seq<seq<string>>, width: nat, j: int)
    requires 0 <= j < |body| && Kept(body[j], width)
  {
    forall k :: j < k < |body| && Kept(body[k], width) ==> Label(body[k]) != Label(body[j])
  }

  /** The `data` dictionary built by the row loop over `body`: each kept row
      writes its cleaned values under its label, so every entry has one value
      per quarter. */
  function ExtractRows(body: seq<seq<string>>, width: nat, fraction: string -> string)
    : (data: map<string, seq<string>>)
    ensures forall m :: m in data ==> |data[m]| == width
  {
    if |body| == 0 then map[]
    else
      var n := |body| - 1;
      var d := ExtractRows(body[..n], width, fraction);
      var row := body[n];
      if Kept(row, width) then d[Label(row) := RowValues(row, width, fraction)] else d
  }

  /** A label is a key of the extracted data exactly when some kept row
      carries it. Rows with an empty label or only empty values are not
      filtered out. */
  lemma {:induction false} ExtractKeys(body: seq<seq<string>>, width: nat, fraction: string -> string)
    ensures forall m :: m in ExtractRows(body, width, fraction) <==>
              exists j :: 0 <= j < |body| && Kept(body[j], width) && Label(body[j]) == m
    decreases |body|
  {
    if |body| > 0 {
      var n := |body| - 1;
      var front := body[..n];
      ExtractKeys(front, width, fraction);
      assert forall j :: 0 <= j < n ==> front[j] == body[j];
      forall m | exists j :: 0 <= j < |body| && Kept(body[j], width) && Label(body[j]) == m
        ensures m in ExtractRows(body, width, fraction)
      {
        var j :| 0 <= j < |body| && Kept(body[j], width) && Label(body[j]) == m;
        if j < n {
          assert front[j] == body[j];
        }
      }
    }
  }

  /** When several kept rows carry the same label, the last of them decides
      the values stored under it. */
  lemma {:induction false} ExtractLastWins(body: seq<seq<string>>, width: nat, fraction: string -> string, j: nat)
    requires j < |body| && Kept(body[j], width) && LastWithLabel(body, width, j)
    ensures Label(body[j]) in ExtractRows(body, width, fraction)
    ensures ExtractRows(body, width, fraction)[Label(body[j])] == RowValues(body[j], width, fraction)
    decreases |body|
  {
    var n := |body| - 1;
    var front := body[..n];
    if j < n {
      assert front[j] == body[j];
      assert LastWithLabel(front, width, j) by {
        forall k | j < k < |front| && Kept(front[k], width)
          ensures Label(front[k]) != Label(front[j])
        {
          assert front[k] == body[k];
        }
      }
      ExtractLastWins(front, width, fraction, j);
    }
  }

  /** `get_financial_data` after the request: a response other than 200 gives
      the empty record; otherwise the breadcrumb gives category and industry,
      and a page without the quarterly section gives no data and no quarters.
      Every metric holds one value per quarter. */
  function GetFinancialData(res: Response, fraction: string -> string): (r: Financials)
    ensures res.status != 200 ==> r == Financials(map[], [], "", "")
    ensures res.status == 200 ==> (r.category, r.industry) == Classify(res.page.breadcrumb)
    ensures res.status == 200 && res.page.quarters.None? ==> r.data == map[] && r.quarters == []
    ensures forall m :: m in r.data ==> |r.data[m]| == |r.quarters|
  {
    if res.status != 200 then Financials(map[], [], "", "")
    else
      var (category, industry) := Classify(res.page.breadcrumb);
      match res.page.quarters
      case None => Financials(map[], [], category, industry)
      case Some(section) =>
        var quarters := QuarterLabels(section.header);
        Financials(ExtractRows(section.body, |quarters|, fraction), quarters, category, industry)
  }

  /** With the quarterly section present, the record's quarters are the
      stripped header cells after the first; its keys are exactly the labels
      of the rows with a cell per quarter besides the label; and under each
      key sit the cleaned values of the last such row with that label. */
  lemma GetFinancialDataSection(res: Response, s: Section, fraction: string -> string)
    requires res.status == 200 && res.page.quarters == Some(s)
    ensures |GetFinancialData(res, fraction).quarters| == if |s.header| == 0 then 0 else |s.header| - 1
    ensures forall i :: 0 <= i < |GetFinancialData(res, fraction).quarters| ==>
              GetFinancialData(res, fraction).quarters[i] == Strip(s.header[i + 1])
    ensures forall m :: m in GetFinancialData(res, fraction).data <==>
              exists j :: 0 <= j < |s.body| && Kept(s.body[j], |GetFinancialData(res, fraction).quarters|)
                          && Label(s.body[j]) == m
    ensures forall j :: 0 <= j < |s.body| && Kept(s.body[j], |GetFinancialData(res, fraction).quarters|)
                        && LastWithLabel(s.body, |GetFinancialData(res, fraction).quarters|, j) ==>
              Label(s.body[j]) in GetFinancialData(res, fraction).data
              && GetFinancialData(res, fraction).data[Label(s.body[j])]
                 == RowValues(s.body[j], |GetFinancialData(res, fraction).quarters|, fraction)
  {
    var width := |QuarterLabels(s.header)|;
    ExtractKeys(s.body, width, fraction);
    forall j | 0 <= j < |s.body| && Kept(s.body[j], width) && LastWithLabel(s.body, width, j)
      ensures Label(s.body[j]) in ExtractRows(s.body, width, fraction)
              && ExtractRows(s.body, width, fraction)[Label(s.body[j])] == RowValues(s.body[j], width, fraction)
    {
      ExtractLastWins(s.body, width, fraction, j);
    }
  }

  /** Every label of the extracted data is stripped, and every value is `""`
      or a canonical decimal when no cell the loop cleans (a value cell of a
      kept row, up to the last quarter) falls into the percent branch. */
  lemma ExtractedValuesClean(body: seq<seq<string>>, width: nat, fraction: string -> string)
    requires forall j, i :: 0 <= j < |body| && Kept(body[j], width) && 1 <= i <= width ==>
               !IsPercent(Normalize(body[j][i]))
    ensures forall m :: m in ExtractRows(body, width, fraction) ==> Strip(m) == m
    ensures forall m :: m in ExtractRows(body, width, fraction) ==>
              forall v :: v in ExtractRows(body, width, fraction)[m] ==> v == "" || IsDecimal(v)
  {
    var data := ExtractRows(body, width, fraction);
    ExtractKeys(body, width, fraction);
    forall m | m in data
      ensures Strip(m) == m
      ensures forall v :: v in data[m] ==> v == "" || IsDecimal(v)
    {
      var j := LastRowWith(body, width, m);
      StripIdempotent(body[j][0]);
      ExtractLastWins(body, width, fraction, j);
      forall i | 0 <= i < width
        ensures data[m][i] == "" || IsDecimal(data[m][i])
      {
        CleanValueShape(body[j][i + 1], fraction);
      }
    }
  }

  /** The last kept row that carries label `m`. */
  lemma LastRowWith(body: seq<seq<string>>, width: nat, m: string) returns (j: nat)
    requires exists j :: 0 <= j < |body| && Kept(body[j], width) && Label(body[j]) == m
    ensures j < |body| && Kept(body[j], width) && Label(body[j]) == m
    ensures LastWithLabel(body, width, j)
  {
    j :| 0 <= j < |body| && Kept(body[j], width) && Label(body[j]) == m;
    while exists k :: j < k < |body| && Kept(body[k], width) && Label(body[k]) == m
      invariant 0 <= j < |body| && Kept(body[j], width) && Label(body[j]) == m
      decreases |body| - j
    {
      var k :| j < k < |body| && Kept(body[k], width) && Label(body[k]) == m;
      j := k;
    }
  }

  // ---------------------------------------------------------------------------
  // Worked scenario

  lemma RemovedFirstScan() ensures RemoveFrom("215,000", 0) == "215000" { }
  lemma RemovedFirst() ensures RemoveSeparators("215,000") == "215000" {
    RemovedFirstScan();
    RemoveFromSpec("215,000", 0);
    assert "215,000"[0..] == "215,000";
  }
  lemma CleanedFirst(fraction: string -> string) ensures CleanValue("215,000", fraction) == "215000" {
    assert Strip("215,000") == "215,000";
    RemovedFirst();
    assert IsDigits("215000");
    assert CleanText("215000") == "215000";
  }
  lemma CleanedSecond(fraction: string -> string) ensures CleanValue("218000", fraction) == "218000" {
    assert IsDigits("218000");
    CleanDecimal("218000", fraction);
  }

  /** The header `["", "Mar 2023", "Jun 2023"]` gives the quarters
      `["Mar 2023", "Jun 2023"]`. */
  lemma ScenarioQuarters()
    ensures QuarterLabels(["", "Mar 2023", "Jun 2023"]) == ["Mar 2023", "Jun 2023"]
  {
    StripOfTrimmed("Mar 2023");
    StripOfTrimmed("Jun 2023");
    assert Strip("Mar 2023") == "Mar 2023" && Strip("Jun 2023") == "Jun 2023";
  }

  lemma ScenarioRowValues(fraction: string -> string)
    ensures Kept(["Sales", "215,000", "218000"], 2)
    ensures Label(["Sales", "215,000", "218000"]) == "Sales"
    ensures RowValues(["Sales", "215,000", "218000"], 2, fraction) == ["215000", "218000"]
  {
    StripOfTrimmed("Sales");
    assert Strip("Sales") == "Sales";
    CleanedFirst(fraction);
    CleanedSecond(fraction);
  }

  /** Under two quarters, the row `["Sales", "215,000", "218000"]` gives the
      data `{"Sales": ["215000", "218000"]}`, and a following row one cell
      short of the quarter count leaves no trace. */
  lemma ScenarioRows(fraction: string -> string)
    ensures ExtractRows([["Sales", "215,000", "218000"]], 2, fraction)
         == map["Sales" := ["215000", "218000"]]
    ensures ExtractRows([["Sales", "215,000", "218000"], ["Tax", "1"]], 2, fraction)
         == map["Sales" := ["215000", "218000"]]
  {
    var row := ["Sales", "215,000", "218000"];
    ScenarioRowValues(fraction);
    assert [row][..0] == [];
    var one := ExtractRows([row], 2, fraction);
    assert one == ExtractRows([], 2, fraction)[Label(row) := RowValues(row, 2, fraction)];
    var body := [row, ["Tax", "1"]];
    assert body[..1] == [row];
    assert !Kept(body[1], 2);
    assert ExtractRows(body, 2, fraction) == one;
  }

  /** A page whose breadcrumb reads `Home › Energy › Oil & Gas` is filed under
      category `Energy` and industry `Oil & Gas`. */
  lemma ScenarioBreadcrumb()
    ensures Classify(Some("Home \U{203A} Energy \U{203A} Oil & Gas")) == ("Energy", "Oil & Gas")
  {
    var parts := ["Home ", " Energy ", " Oil & Gas"];
    assert Join(parts, Chevron) == "Home \U{203A} Energy \U{203A} Oil & Gas";
    ClassifyParts(parts);
    StrippedEnergy();
  }

  lemma StrippedEnergy()
    ensures Strip(" Energy ") == "Energy" && Strip(" Oil & Gas") == "Oil & Gas"
  {
    assert StripRight(" Energy ") == " Energy";
    assert StripLeft(" Energy") == "Energy";
    assert StripRight(" Oil & Gas") == " Oil & Gas";
    assert StripLeft(" Oil & Gas") == "Oil & Gas";
  }

}

=== FILE: store.dfy ===
/** The write path of stock_recommender.py, `insert_quarterly_to_snowflake`,
    with the fact table as a map from `(stock, metric, quarter)` to the stored
    columns. Each `MERGE` statement is an update of that map at one key; the
    connection, the SQL text and the commit are outside the model. */
module Store {
  import opened Wrappers

  /** The key the `MERGE` matches on. */
  datatype Key = Key(stock: string, metric: string, quarter: string)

  /** The columns a `MERGE` sets. */
  datatype Fact = Fact(value: string, industry: string, category: string)

  /** The table `FINANCIALS_QUARTERLY`: at most one row per key. */
  type Table = map<Key, Fact>

  /** Position `i` of the quarter loop issues a `MERGE`: it is a quarter
      position, the metric has a value there, and that value is not empty. */
  predicate IsWrite(values: seq<string>, quarters: seq<string>, i: int) {
    0 <= i < |quarters| && i < |values| && values[i] != ""
  }

  /** The value the first `n` positions of the quarter loop leave for quarter
      `q` of one metric: the one at the last writing position labelled `q`. */
  function LastWrite(values: seq<string>, quarters: seq<string>, q: string, n: nat): Option<string>
    requires n <= |quarters|
  {
    if n == 0 then None
    else if IsWrite(values, quarters, n - 1) && quarters[n - 1] == q then Some(values[n - 1])
    else LastWrite(values, quarters, q, n - 1)
  }

  /** `LastWrite` finds a value exactly when some writing position before `n`
      is labelled `q`, and then it is the value at the last such position. */
  lemma {:induction false} LastWriteSpec(values: seq<string>, quarters: seq<string>, q: string, n: nat)
    requires n <= |quarters|
    ensures LastWrite(values, quarters, q, n).Some? <==>
              exists i :: 0 <= i < n && IsWrite(values, quarters, i) && quarters[i] == q
    ensures LastWrite(values, quarters, q, n).Some? ==>
              exists i :: 0 <= i < n && IsWrite(values, quarters, i) && quarters[i] == q
                && LastWrite(values, quarters, q, n).value == values[i]
                && forall j :: i < j < n && IsWrite(values, quarters, j) ==> quarters[j] != q
    decreases n
  {
    if n > 0 {
      LastWriteSpec(values, quarters, q, n - 1);
    }
  }

  /** The writes the first `n` positions of the quarter loop make for one
      metric, in loop order: a later position overwrites an earlier one with
      the same quarter label. */
  function MetricWrites(stock: string, metric: string, values: seq<string>, quarters: seq<string>,
                        category: string, industry: string, n: nat): map<Key, Fact>
    requires n <= |quarters|
  {
    if n == 0 then map[]
    else
      var w := MetricWrites(stock, metric, values, quarters, category, industry, n - 1);
      if IsWrite(values, quarters, n - 1)
      then w[Key(stock, metric, quarters[n - 1]) := Fact(values[n - 1], industry, category)]
      else w
  }

  /** The keys a load writes for the metrics in `metrics`. */
  function WriteKeys(stock: string, financials: map<string, seq<string>>, metrics: set<string>,
                     quarters: seq<string>): set<Key>
  {
    set m, i | m in metrics && m in financials && 0 <= i < |quarters| && IsWrite(financials[m], quarters, i)
      :: Key(stock, m, quarters[i])
  }

  /** The order-free description of what a load writes for the metrics in
      `metrics`: at every written key, the last non-empty value of that metric
      for that quarter, with the load's industry and category. */
  function Writes(stock: string, financials: map<string, seq<string>>, metrics: set<string>,
                  quarters: seq<string>, category: string, industry: string): map<Key, Fact>
  {
    map k | k in WriteKeys(stock, financials, metrics, quarters)
      :: Fact(LastWrite(financials[k.metric], quarters, k.quarter, |quarters|).GetOr(""), industry, category)
  }

  /** The table after loading one stock's scraped data. */
  function Load(t: Table, stock: string, financials: map<string, seq<string>>, quarters: seq<string>,
                category: string, industry: string): Table
  {
    t + Writes(stock, financials, financials.Keys, quarters, category, industry)
  }

  /** Key `k` is written by the load. */
  predicate Written(stock: string, financials: map<string, seq<string>>, quarters: seq<string>, k: Key) {
    k.stock == stock && k.metric in financials
    && LastWrite(financials[k.metric], quarters, k.quarter, |quarters|).Some?
  }

  lemma WriteKeysSpec(stock: string, financials: map<string, seq<string>>, metrics: set<string>,
                      quarters: seq<string>, k: Key)
    ensures k in WriteKeys(stock, financials, metrics, quarters) <==>
              k.metric in metrics && Written(stock, financials, quarters, k)
  {
    if k.metric in financials {
      LastWriteSpec(financials[k.metric], quarters, k.quarter, |quarters|);
    }
    if k in WriteKeys(stock, financials, metrics, quarters) {
      var m, i :| m in metrics && m in financials && 0 <= i < |quarters| && IsWrite(financials[m], quarters, i)
                  && k == Key(stock, m, quarters[i]);
    }
  }

  /** The writes of one metric's quarter loop are the order-free writes of
      that metric. */
  lemma {:induction false} MetricWritesSpec(stock: string, metric: string, values: seq<string>,
                                            quarters: seq<string>, category: string, industry: string, n: nat)
    requires n <= |quarters|
    ensures forall k :: k in MetricWrites(stock, metric, values, quarters, category, industry, n) <==>
              k.stock == stock && k.metric == metric && LastWrite(values, quarters, k.quarter, n).Some?
    ensures forall k :: k in MetricWrites(stock, metric, values, quarters, category, industry, n) ==>
              MetricWrites(stock, metric, values, quarters, category, industry, n)[k]
                == Fact(LastWrite(values, quarters, k.quarter, n).value, industry, category)
    decreases n
  {
    if n > 0 {
      MetricWritesSpec(stock, metric, values, quarters, category, industry, n - 1);
    }
  }

  /** Adding one more metric's quarter loop to the writes of a set of metrics
      gives the writes of the larger set. */
  lemma WritesAddMetric(stock: string, financials: map<string, seq<string>>, done: set<string>,
                        m: string, quarters: seq<string>, category: string, industry: string)
    requires m in financials && m !in done
    ensures Writes(stock, financials, done, quarters, category, industry)
              + MetricWrites(stock, m, financials[m], quarters, category, industry, |quarters|)
         == Writes(stock, financials, done + {m}, quarters, category, industry)
  {
    var before := Writes(stock, financials, done, quarters, category, industry);
    var mw := MetricWrites(stock, m, financials[m], quarters, category, industry, |quarters|);
    var after := Writes(stock, financials, done + {m}, quarters, category, industry);
    MetricWritesSpec(stock, m, financials[m], quarters, category, industry, |quarters|);
    forall k
      ensures k in before + mw <==> k in after
      ensures k in after ==> (before + mw)[k] == after[k]
    {
      WriteKeysSpec(stock, financials, done, quarters, k);
      WriteKeysSpec(stock, financials, done + {m}, quarters, k);
    }
  }

  /** One `MERGE` after the writes so far is the writes so far with that key
      updated. */
  lemma UnionUpdate(base: Table, w: map<Key, Fact>, k: Key, f: Fact)
    ensures (base + w)[k := f] == base + w[k := f]
  {
  }

  /** Appending one metric's writes to a load in progress. */
  lemma UnionAssoc(t: Table, a: map<Key, Fact>, b: map<Key, Fact>)
    ensures (t + a) + b == t + (a + b)
  {
  }

  /** The inner loop of `insert_quarterly_to_snowflake` for one metric: for
      each quarter position in order, a non-empty value is merged into the
      table at `(stock, metric, quarter)`. */
  method UpsertMetric(t: Table, stock: string, metric: string, values: seq<string>, quarters: seq<string>,
                      category: string, industry: string)
    returns (r: Table)
    ensures r == t + MetricWrites(stock, metric, values, quarters, category, industry, |quarters|)
  {
    r := t;
    var i := 0;
    while i < |quarters|
      invariant 0 <= i <= |quarters|
      invariant r == t + MetricWrites(stock, metric, values, quarters, category, industry, i)
    {
      var value := if i < |values| then values[i] else "";
      if value != "" {
        UnionUpdate(t, MetricWrites(stock, metric, values, quarters, category, industry, i),
                    Key(stock, metric, quarters[i]), Fact(value, industry, category));
        r := r[Key(stock, metric, quarters[i]) := Fact(value, industry, category)];
      }
      i := i + 1;
    }
  }

  /** `insert_quarterly_to_snowflake(conn, stock, financials, quarters,
      category, industry)`: the metrics are taken in whatever order the
      dictionary yields them, and each is merged by `UpsertMetric`. The table
      that results is `Load`, so it does not depend on the metric order. */
  method InsertQuarterly(t: Table, stock: string, financials: map<string, seq<string>>,
                         quarters: seq<string>, category: string, industry: string)
    returns (r: Table)
    ensures r == Load(t, stock, financials, quarters, category, industry)
  {
    r := t;
    var todo := financials.Keys;
    ghost var done: set<string> := {};
    while todo != {}
      invariant todo !! done && todo + done == financials.Keys
      invariant r == t + Writes(stock, financials, done, quarters, category, industry)
      decreases |todo|
    {
      var metric :| metric in todo;
      r := UpsertMetric(r, stock, metric, financials[metric], quarters, category, industry);
      UnionAssoc(t, Writes(stock, financials, done, quarters, category, industry),
                 MetricWrites(stock, metric, financials[metric], quarters, category, industry, |quarters|));
      WritesAddMetric(stock, financials, done, metric, quarters, category, industry);
      todo := todo - {metric};
      done := done + {metric};
    }
  }

  // ---------------------------------------------------------------------------
  // Properties of a load

  /** A load writes key `k` exactly when `k` names the loaded stock, a metric
      of the scraped data, and a quarter at some position `i` where the
      metric has a non-empty value; the stored value is the one at the last
      such position, with the load's industry and category. */
  lemma LoadWrites(t: Table, stock: string, financials: map<string, seq<string>>, quarters: seq<string>,
                   category: string, industry: string, k: Key)
    requires k.stock == stock && k.metric in financials
    requires exists i :: IsWrite(financials[k.metric], quarters, i) && quarters[i] == k.quarter
    ensures k in Load(t, stock, financials, quarters, category, industry)
    ensures exists i :: (IsWrite(financials[k.metric], quarters, i) && quarters[i] == k.quarter
              && Load(t, stock, financials, quarters, category, industry)[k]
                 == Fact(financials[k.metric][i], industry, category)
              && forall j :: i < j && IsWrite(financials[k.metric], quarters, j) ==> quarters[j] != k.quarter)
  {
    LastWriteSpec(financials[k.metric], quarters, k.quarter, |quarters|);
    WriteKeysSpec(stock, financials, financials.Keys, quarters, k);
  }

  /** Keys the load does not write keep their row, or stay absent. */
  lemma LoadFrame(t: Table, stock: string, financials: map<string, seq<string>>, quarters: seq<string>,
                  category: string, industry: string, k: Key)
    requires k.stock != stock || k.metric !in financials
          || forall i :: IsWrite(financials[k.metric], quarters, i) ==> quarters[i] != k.quarter
    ensures k in Load(t, stock, financials, quarters, category, industry) <==> k in t
    ensures k in t ==> Load(t, stock, financials, quarters, category, industry)[k] == t[k]
  {
    if k.metric in financials {
      LastWriteSpec(financials[k.metric], quarters, k.quarter, |quarters|);
    }
    WriteKeysSpec(stock, financials, financials.Keys, quarters, k);
  }

  /** Loading the same data twice leaves the table of loading it once. */
  lemma LoadIdempotent(t: Table, stock: string, financials: map<string, seq<string>>, quarters: seq<string>,
                       category: string, industry: string)
    ensures Load(Load(t, stock, financials, quarters, category, industry), stock, financials, quarters,
                 category, industry)
         == Load(t, stock, financials, quarters, category, industry)
  {
  }

  /** A load never adds an empty value to the table. */
  lemma LoadNoEmpty(t: Table, stock: string, financials: map<string, seq<string>>, quarters: seq<string>,
                    category: string, industry: string)
    requires forall k :: k in t ==> t[k].value != ""
    ensures forall k :: k in Load(t, stock, financials, quarters, category, industry) ==>
              Load(t, stock, financials, quarters, category, industry)[k].value != ""
  {
    forall k | k in Load(t, stock, financials, quarters, category, industry)
      ensures Load(t, stock, financials, quarters, category, industry)[k].value != ""
    {
      WriteKeysSpec(stock, financials, financials.Keys, quarters, k);
      if Written(stock, financials, quarters, k) {
        LastWriteSpec(financials[k.metric], quarters, k.quarter, |quarters|);
      }
    }
  }

  /** Loading "100" and then "150" for the same stock, metric and quarter
      leaves one row, holding "150". */
  lemma ReloadOverwrites()
    ensures var k := Key("RELIANCE", "Sales", "Mar 2023");
            var t1 := Load(map[], "RELIANCE", map["Sales" := ["100"]], ["Mar 2023"], "Energy", "Oil & Gas");
            var t2 := Load(t1, "RELIANCE", map["Sales" := ["150"]], ["Mar 2023"], "Energy", "Oil & Gas");
            t1.Keys == {k} && t2.Keys == {k} && t2[k] == Fact("150", "Oil & Gas", "Energy")
  {
    var k := Key("RELIANCE", "Sales", "Mar 2023");
    var f1: map<string, seq<string>> := map["Sales" := ["100"]];
    var f2: map<string, seq<string>> := map["Sales" := ["150"]];
    var qs := ["Mar 2023"];
    var t1 := Load(map[], "RELIANCE", f1, qs, "Energy", "Oil & Gas");
    var t2 := Load(t1, "RELIANCE", f2, qs, "Energy", "Oil & Gas");
    assert IsWrite(f1["Sales"], qs, 0) && IsWrite(f2["Sales"], qs, 0);
    assert LastWrite(f1["Sales"], qs, "Mar 2023", 1) == Some("100");
    assert LastWrite(f2["Sales"], qs, "Mar 2023", 1) == Some("150");
    forall k' ensures k' in t1 <==> k' == k {
      WriteKeysSpec("RELIANCE", f1, f1.Keys, qs, k');
      LastWriteSpec(f1["Sales"], qs, k'.quarter, 1);
    }
    forall k' ensures k' in t2 <==> k' == k {
      WriteKeysSpec("RELIANCE", f2, f2.Keys, qs, k');
      LastWriteSpec(f2["Sales"], qs, k'.quarter, 1);
    }
    WriteKeysSpec("RELIANCE", f2, f2.Keys, qs, k);
  }
}

=== FILE: text.dfy ===
/** String helpers shared by the scraper and the categoriser: Python's
    `str.strip()`, `str.split(sep)`, `str.lower()` and the `in` substring test,
    restricted to what those calls do on the code points the model covers. */
module Text {

  /** Python's `str.isspace()` on the code points up to U+00FF: the ASCII
      whitespace characters, the four information separators U+001C..U+001F,
      NEXT LINE (U+0085) and NO-BREAK SPACE (U+00A0). */
  predicate IsSpace(c: char) {
    c == ' ' || ('\t' <= c <= '\r') || ('\U{1C}' <= c <= '\U{1F}')
    || c == '\U{85}' || c == '\U{A0}'
  }

  /** Drops the leading whitespace of `s`. */
  function StripLeft(s: string): string {
    if |s| > 0 && IsSpace(s[0]) then StripLeft(s[1..]) else s
  }

  /** Drops the trailing whitespace of `s`. */
  function StripRight(s: string): string {
    if |s| > 0 && IsSpace(s[|s| - 1]) then StripRight(s[..|s| - 1]) else s
  }

  /** Python's `str.strip()` with no argument. Stripping the right end first
      gives the same string as stripping the left end first. */
  function Strip(s: string): string {
    StripLeft(StripRight(s))
  }

  /** `StripLeft` keeps a suffix, drops only whitespace, and leaves none in
      front. */
  lemma {:induction false} StripLeftSuffix(s: string)
    ensures |StripLeft(s)| <= |s| && StripLeft(s) == s[|s| - |StripLeft(s)|..]
    ensures forall i :: 0 <= i < |s| - |StripLeft(s)| ==> IsSpace(s[i])
    ensures |StripLeft(s)| == 0 || !IsSpace(StripLeft(s)[0])
    decreases |s|
  {
    if |s| > 0 && IsSpace(s[0]) {
      StripLeftSuffix(s[1..]);
      var r := StripLeft(s[1..]);
      assert forall i :: 1 <= i < |s| - |r| ==> s[i] == s[1..][i - 1];
    }
  }

  /** `StripRight` keeps a prefix, drops only whitespace, and leaves none at
      the end. */
  lemma {:induction false} StripRightPrefix(s: string)
    ensures |StripRight(s)| <= |s| && StripRight(s) == s[..|StripRight(s)|]
    ensures forall i :: |StripRight(s)| <= i < |s| ==> IsSpace(s[i])
    ensures |StripRight(s)| == 0 || !IsSpace(StripRight(s)[|StripRight(s)| - 1])
    decreases |s|
  {
    if |s| > 0 && IsSpace(s[|s| - 1]) {
      StripRightPrefix(s[..|s| - 1]);
      var r := StripRight(s[..|s| - 1]);
      assert forall i :: |r| <= i < |s| - 1 ==> s[i] == s[..|s| - 1][i];
    }
  }

  /** A stripped string has no whitespace at either end and holds no character
      its input did not. */
  lemma StripShape(s: string)
    ensures |Strip(s)| == 0 || (!IsSpace(Strip(s)[0]) && !IsSpace(Strip(s)[|Strip(s)| - 1]))
    ensures forall c :: c in Strip(s) ==> c in s
  {
    var t := StripRight(s);
    var r := StripLeft(t);
    StripRightPrefix(s);
    StripLeftSuffix(t);
    assert |r| > 0 ==> r[|r| - 1] == t[|t| - 1];
    assert forall c :: c in r ==> c in t;
  }

  lemma StripRightOfNonSpace(s: string)
    requires |s| == 0 || !IsSpace(s[|s| - 1])
    ensures StripRight(s) == s
  {
  }

  /** A string that starts and ends with a non-whitespace character is its
      own strip. */
  lemma StripOfTrimmed(s: string)
    requires |s| == 0 || (!IsSpace(s[0]) && !IsSpace(s[|s| - 1]))
    ensures Strip(s) == s
  {
  }

  /** Stripping is idempotent. */
  lemma StripIdempotent(s: string)
    ensures Strip(Strip(s)) == Strip(s)
  {
    StripShape(s);
    StripOfTrimmed(Strip(s));
  }

  /** Left-stripping only looks at the text before the first non-space. */
  lemma {:induction false} StripLeftAppend(a: string, b: string)
    requires |b| > 0 && !IsSpace(b[0])
    ensures StripLeft(a + b) == StripLeft(a) + b
    decreases |a|
  {
    if |a| == 0 {
      assert a + b == b;
    } else if IsSpace(a[0]) {
      assert (a + b)[1..] == a[1..] + b;
      StripLeftAppend(a[1..], b);
    } else {
    }
  }

  /** Right-stripping only looks at the text after the last non-space. */
  lemma {:induction false} StripRightAppend(a: string, b: string)
    requires |a| > 0 && !IsSpace(a[|a| - 1])
    ensures StripRight(a + b) == a + StripRight(b)
    decreases |b|
  {
    if |b| == 0 {
      assert a + b == a;
    } else if IsSpace(b[|b| - 1]) {
      assert (a + b)[..|a + b| - 1] == a + b[..|b| - 1];
      StripRightAppend(a, b[..|b| - 1]);
    } else {
      assert (a + b)[|a + b| - 1] == b[|b| - 1];
    }
  }

  // ---------------------------------------------------------------------------
  // Splitting on a separator character, as Python's `str.split(sep)` does.

  /** Glues `parts` back together with `sep` between neighbours. */
  function Join(parts: seq<string>, sep: char): string
    requires |parts| > 0
  {
    if |parts| == 1 then parts[0] else parts[0] + [sep] + Join(parts[1..], sep)
  }

  /** Python's `s.split(sep)`: every maximal run between separators, empty runs
      included, so a string with `n` separators has `n + 1` parts. */
  function Split(s: string, sep: char): (r: seq<string>)
    ensures |r| == Count(s, sep) + 1
    ensures forall i :: 0 <= i < |r| ==> sep !in r[i]
    ensures Join(r, sep) == s
  {
    if |s| == 0 then [""]
    else
      var rest := Split(s[1..], sep);
      assert s == [s[0]] + s[1..];
      if s[0] == sep then [""] + rest
      else
        assert Join(rest, sep) == rest[0] + Join(rest, sep)[|rest[0]|..];
        [[s[0]] + rest[0]] + rest[1..]
  }

  /** Number of occurrences of `c` in `s`. */
  function Count(s: string, c: char): nat {
    if |s| == 0 then 0 else (if s[0] == c then 1 else 0) + Count(s[1..], c)
  }

  lemma {:induction false} SplitWithout(s: string, sep: char)
    requires sep !in s
    ensures Split(s, sep) == [s]
    decreases |s|
  {
    if |s| > 0 {
      SplitWithout(s[1..], sep);
    }
  }

  lemma {:induction false} SplitAppend(a: string, b: string, sep: char)
    requires sep !in a
    ensures Split(a + [sep] + b, sep) == [a] + Split(b, sep)
    decreases |a|
  {
    if |a| == 0 {
      assert a + [sep] + b == [sep] + b;
      assert ([sep] + b)[1..] == b;
    } else {
      assert (a + [sep] + b)[1..] == a[1..] + [sep] + b;
      SplitAppend(a[1..], b, sep);
      assert a == [a[0]] + a[1..];
    }
  }

  /** Splitting undoes joining whenever no part contains the separator. */
  lemma {:induction false} SplitJoin(parts: seq<string>, sep: char)
    requires |parts| > 0
    requires forall i :: 0 <= i < |parts| ==> sep !in parts[i]
    ensures Split(Join(parts, sep), sep) == parts
    decreases |parts|
  {
    if |parts| == 1 {
      SplitWithout(parts[0], sep);
    } else {
      SplitJoin(parts[1..], sep);
      SplitAppend(parts[0], Join(parts[1..], sep), sep);
      assert parts == [parts[0]] + parts[1..];
    }
  }

  lemma {:induction false} JoinLast(parts: seq<string>, sep: char)
    requires |parts| >= 2
    ensures Join(parts, sep) == Join(parts[..|parts| - 1], sep) + [sep] + parts[|parts| - 1]
    decreases |parts|
  {
    if |parts| > 2 {
      JoinLast(parts[1..], sep);
      assert parts[1..][..|parts| - 2] == parts[..|parts| - 1][1..];
    }
  }

  /** Right-stripping a joined string only trims its last part. */
  lemma StripRightJoin(parts: seq<string>, sep: char)
    requires |parts| >= 2 && !IsSpace(sep)
    ensures StripRight(Join(parts, sep)) == Join(parts[|parts| - 1 := StripRight(parts[|parts| - 1])], sep)
  {
    var n := |parts|;
    var front := Join(parts[..n - 1], sep);
    JoinLast(parts, sep);
    StripRightAppend(front + [sep], parts[n - 1]);
    var q := parts[n - 1 := StripRight(parts[n - 1])];
    JoinLast(q, sep);
    assert q[..n - 1] == parts[..n - 1];
  }

  /** Left-stripping a joined string only trims its first part. */
  lemma StripLeftJoin(parts: seq<string>, sep: char)
    requires |parts| >= 2 && !IsSpace(sep)
    ensures StripLeft(Join(parts, sep)) == Join(parts[0 := StripLeft(parts[0])], sep)
  {
    var rest := Join(parts[1..], sep);
    var p := parts[0 := StripLeft(parts[0])];
    assert p[1..] == parts[1..];
    calc {
      StripLeft(Join(parts, sep));
      StripLeft(parts[0] + [sep] + rest);
      { assert parts[0] + [sep] + rest == parts[0] + ([sep] + rest);
        StripLeftAppend(parts[0], [sep] + rest); }
      StripLeft(parts[0]) + ([sep] + rest);
      p[0] + [sep] + Join(p[1..], sep);
      Join(p, sep);
    }
  }

  /** Stripping a joined string only trims the first and the last part,
      provided the separator is not whitespace. */
  lemma StripJoin(parts: seq<string>, sep: char)
    requires |parts| >= 2 && !IsSpace(sep)
    ensures Strip(Join(parts, sep))
         == Join(parts[|parts| - 1 := StripRight(parts[|parts| - 1])][0 := StripLeft(parts[0])], sep)
  {
    var q := parts[|parts| - 1 := StripRight(parts[|parts| - 1])];
    StripRightJoin(parts, sep);
    StripLeftJoin(q, sep);
    assert q[0] == parts[0];
  }

  // ---------------------------------------------------------------------------
  // Case folding and substring search.

  /** `str.lower()` on ASCII letters; every other character is kept. */
  function LowerChar(c: char): char {
    if 'A' <= c <= 'Z' then (c as int + 32) as char else c
  }

  function UpperChar(c: char): char {
    if 'a' <= c <= 'z' then (c as int - 32) as char else c
  }

  function Lower(s: string): (r: string)
    ensures |r| == |s|
    ensures forall i :: 0 <= i < |s| ==> r[i] == LowerChar(s[i])
  {
    seq(|s|, i requires 0 <= i < |s| => LowerChar(s[i]))
  }

  function Upper(s: string): (r: string)
    ensures |r| == |s|
    ensures forall i :: 0 <= i < |s| ==> r[i] == UpperChar(s[i])
  {
    seq(|s|, i requires 0 <= i < |s| => UpperChar(s[i]))
  }

  /** Upper-casing first does not change what lower-casing produces. */
  lemma LowerOfUpper(s: string)
    ensures Lower(Upper(s)) == Lower(s)
  {
    forall i | 0 <= i < |s|
      ensures Lower(Upper(s))[i] == Lower(s)[i]
    {
    }
  }

  /** `w` matches `s` at position `i` from its `j`-th character on. */
  predicate MatchFrom(s: string, w: string, i: nat, j: nat)
    decreases |w| - j
  {
    j >= |w| || (i + j < |s| && s[i + j] == w[j] && MatchFrom(s, w, i, j + 1))
  }

  /** `w` occurs in `s` at some position from `i` on. */
  predicate ContainsFrom(s: string, w: string, i: nat)
    decreases |s| - i
  {
    MatchFrom(s, w, i, 0) || (i < |s| && ContainsFrom(s, w, i + 1))
  }

  /** Python's `w in s` for strings, as the naive scan. */
  predicate Contains(s: string, w: string) {
    ContainsFrom(s, w, 0)
  }

  /** `w` occurs in `s` starting at position `i`. */
  predicate OccursAt(s: string, w: string, i: int) {
    0 <= i <= |s| - |w| && s[i..i + |w|] == w
  }

  lemma {:induction false} MatchFromSpec(s: string, w: string, i: nat, j: nat)
    requires j <= |w|
    ensures MatchFrom(s, w, i, j) <==>
              (j == |w| || i + |w| <= |s|) && forall k :: j <= k < |w| ==> s[i + k] == w[k]
    decreases |w| - j
  {
    if j < |w| {
      MatchFromSpec(s, w, i, j + 1);
      if MatchFrom(s, w, i, j) {
        forall k | j <= k < |w| ensures s[i + k] == w[k] {
          if k > j {
            assert j + 1 <= k < |w|;
          }
        }
      }
    }
  }

  /** The scan from `i` finds `w` exactly when it occurs at a position `i`
      or later. */
  lemma {:induction false} ContainsFromSpec(s: string, w: string, i: nat)
    requires i <= |s|
    ensures ContainsFrom(s, w, i) <==> exists p :: i <= p && OccursAt(s, w, p)
    decreases |s| - i
  {
    MatchFromSpec(s, w, i, 0);
    assert MatchFrom(s, w, i, 0) <==> OccursAt(s, w, i) by {
      if MatchFrom(s, w, i, 0) && |w| > 0 {
        assert s[i..i + |w|] == w;
      }
    }
    if i < |s| {
      ContainsFromSpec(s, w, i + 1);
      if exists p :: i <= p && OccursAt(s, w, p) {
        var p :| i <= p && OccursAt(s, w, p);
        if p > i {
          assert i + 1 <= p;
        }
      }
    } else {
      if exists p :: i <= p && OccursAt(s, w, p) {
        var p :| i <= p && OccursAt(s, w, p);
        assert p == i;
      }
    }
  }

  /** `Contains` means `w` occurs at some position of `s`. */
  lemma ContainsAt(s: string, w: string)
    ensures Contains(s, w) <==> exists i :: OccursAt(s, w, i)
  {
    ContainsFromSpec(s, w, 0);
  }

  /** An occurrence of `w` at `i` puts each character of `w` at its place in
      `s`. */
  lemma OccursAtChars(s: string, w: string, i: int)
    requires OccursAt(s, w, i)
    ensures forall k :: 0 <= k < |w| ==> s[i + k] == w[k]
  {
    forall k | 0 <= k < |w| ensures s[i + k] == w[k] {
      assert s[i..i + |w|][k] == s[i + k];
    }
  }
}

=== FILE: values.dfy ===
/** The normaliser of scraped table cells (`clean_value`) and the validity test
    on value lists (`is_valid`) of stock_recommender.py. */
module Values {
  import opened Text

  predicate IsDigit(c: char) {
    '0' <= c <= '9'
  }

  /** `\d+`: one or more ASCII digits. */
  predicate IsDigits(s: string) {
    |s| > 0 && forall i :: 0 <= i < |s| ==> IsDigit(s[i])
  }

  /** `s` is `\d+\.\d+` with its point at position `k`. */
  predicate PointAt(s: string, k: int) {
    0 < k < |s| - 1 && s[k] == '.' && IsDigits(s[..k]) && IsDigits(s[k + 1..])
  }

  /** `\d+(\.\d+)?` */
  predicate IsUnsigned(s: string) {
    IsDigits(s) || exists k :: 0 < k < |s| && PointAt(s, k)
  }

  /** The canonical value shape, the regular expression `^-?\d+(\.\d+)?$`. */
  predicate IsDecimal(s: string) {
    IsUnsigned(s) || (|s| > 0 && s[0] == '-' && IsUnsigned(s[1..]))
  }

  /** The characters `clean_value` deletes everywhere: thousands separators,
      plus signs and no-break spaces. */
  predicate IsSeparator(c: char) {
    c == ',' || c == '+' || c == '\U{A0}'
  }

  /** The three `replace(..., "")` calls. */
  function RemoveSeparators(s: string): string
  {
    if |s| == 0 then ""
    else if IsSeparator(s[0]) then RemoveSeparators(s[1..])
    else [s[0]] + RemoveSeparators(s[1..])
  }

  /** The same deletion as a scan over positions, from `i` on; on literal
      text the solver evaluates it directly. */
  function RemoveFrom(s: string, i: nat): string
    decreases |s| - i
  {
    if i >= |s| then ""
    else if IsSeparator(s[i]) then RemoveFrom(s, i + 1)
    else [s[i]] + RemoveFrom(s, i + 1)
  }

  lemma {:induction false} RemoveFromSpec(s: string, i: nat)
    requires i <= |s|
    ensures RemoveFrom(s, i) == RemoveSeparators(s[i..])
    decreases |s| - i
  {
    if i < |s| {
      RemoveFromSpec(s, i + 1);
      assert s[i..][1..] == s[i + 1..];
    }
  }

  /** Removing separators keeps exactly the other characters. */
  lemma {:induction false} RemoveSeparatorsMembers(s: string)
    ensures forall c :: c in RemoveSeparators(s) <==> c in s && !IsSeparator(c)
    decreases |s|
  {
    if |s| > 0 {
      RemoveSeparatorsMembers(s[1..]);
      assert forall c :: c in s <==> c == s[0] || c in s[1..];
    }
  }

  /** The text `clean_value` inspects: stripped of surrounding whitespace, then
      rid of every separator. */
  function Normalize(val: string): string {
    RemoveSeparators(Strip(val))
  }

  predicate IsPercent(v: string) {
    |v| > 0 && v[|v| - 1] == '%'
  }

  /** Python's `v.strip('%')`: leading and trailing percent signs removed. */
  function StripPercent(v: string): string {
    if |v| > 0 && v[0] == '%' then StripPercent(v[1..])
    else if |v| > 0 && v[|v| - 1] == '%' then StripPercent(v[..|v| - 1])
    else v
  }

  /** The accounting convention `(123)` for `-123`. */
  function Unparen(v: string): string {
    if |v| >= 2 && v[0] == '(' && v[|v| - 1] == ')' then "-" + v[1..|v| - 1] else v
  }

  /** What `clean_value` does with normalised text that does not end in `%`:
      rewrite an accounting negative, then keep the text if it is a canonical
      decimal and answer `""` otherwise. The answer never holds a separator or
      whitespace. */
  function CleanText(v: string): (r: string)
    ensures r == "" || IsDecimal(r)
    ensures forall i :: 0 <= i < |r| ==> !IsSeparator(r[i]) && !IsSpace(r[i])
  {
    var w := Unparen(v);
    if IsDecimal(w) then
      DecimalPlain(w);
      w
    else ""
  }

  /** `clean_value(val)`. A cell whose normalised text ends in `%` goes through
      `fraction`, which stands for `str(float(x) / 100)` (or `""` when `float`
      raises) applied to the text without its percent signs. */
  function CleanValue(val: string, fraction: string -> string): string
  {
    var v := Normalize(val);
    if IsPercent(v) then fraction(StripPercent(v)) else CleanText(v)
  }

  /** Outside the percent branch every cell becomes a canonical decimal or the
      empty string, without separators or whitespace. */
  lemma CleanValueShape(val: string, fraction: string -> string)
    requires !IsPercent(Normalize(val))
    ensures CleanValue(val, fraction) == "" || IsDecimal(CleanValue(val, fraction))
    ensures forall i :: 0 <= i < |CleanValue(val, fraction)| ==>
              CleanValue(val, fraction)[i] !in {',', '+', '\U{A0}'}
  {
    var r := CleanValue(val, fraction);
    forall i | 0 <= i < |r|
      ensures r[i] !in {',', '+', '\U{A0}'}
    {
      assert !IsSeparator(r[i]);
    }
  }

  // ---------------------------------------------------------------------------
  // Properties of the normaliser.

  /** A canonical decimal consists of digits, at most one point and at most a
      leading minus sign. */
  lemma DecimalChars(s: string)
    requires IsDecimal(s)
    ensures forall i :: 0 <= i < |s| ==> IsDigit(s[i]) || s[i] == '.' || s[i] == '-'
  {
    if IsUnsigned(s) {
      UnsignedChars(s);
    } else {
      UnsignedChars(s[1..]);
      assert forall i :: 1 <= i < |s| ==> s[i] == s[1..][i - 1];
    }
  }

  /** A canonical decimal holds neither separators nor whitespace. */
  lemma DecimalPlain(s: string)
    requires IsDecimal(s)
    ensures forall i :: 0 <= i < |s| ==> !IsSeparator(s[i]) && !IsSpace(s[i])
  {
    DecimalChars(s);
    forall i | 0 <= i < |s|
      ensures !IsSeparator(s[i]) && !IsSpace(s[i])
    {
      var c := s[i];
      assert IsDigit(c) || c == '.' || c == '-';
    }
  }

  lemma UnsignedChars(s: string)
    requires IsUnsigned(s)
    ensures forall i :: 0 <= i < |s| ==> IsDigit(s[i]) || s[i] == '.'
  {
    if !IsDigits(s) {
      var k :| 0 < k < |s| && PointAt(s, k);
      assert 0 < k < |s| - 1 && IsDigits(s[..k]) && IsDigits(s[k + 1..]);
      forall i | 0 <= i < |s|
        ensures IsDigit(s[i]) || s[i] == '.'
      {
        if i < k {
          assert s[..k][i] == s[i];
        } else if i > k {
          assert s[k + 1..][i - k - 1] == s[i];
        }
      }
    }
  }

  lemma {:induction false} RemoveSeparatorsOfClean(s: string)
    requires forall i :: 0 <= i < |s| ==> !IsSeparator(s[i])
    ensures RemoveSeparators(s) == s
    decreases |s|
  {
    if |s| > 0 {
      RemoveSeparatorsOfClean(s[1..]);
      assert s == [s[0]] + s[1..];
    }
  }

  /** Removing separators twice is the same as removing them once. */
  lemma RemoveSeparatorsIdempotent(s: string)
    ensures RemoveSeparators(RemoveSeparators(s)) == RemoveSeparators(s)
  {
    var r := RemoveSeparators(s);
    RemoveSeparatorsMembers(s);
    assert forall i :: 0 <= i < |r| ==> r[i] in r;
    RemoveSeparatorsOfClean(r);
  }

  /** Every canonical decimal is a fixed point of the normaliser. */
  lemma CleanDecimal(d: string, fraction: string -> string)
    requires IsDecimal(d)
    ensures CleanValue(d, fraction) == d
  {
    DecimalChars(d);
    StripOfTrimmed(d);
    RemoveSeparatorsOfClean(d);
  }

  /** The normaliser is idempotent on everything outside the percent branch:
      cleaning a cleaned value changes nothing, and `""` stays `""`. */
  lemma CleanIdempotent(val: string, fraction: string -> string)
    requires !IsPercent(Normalize(val))
    ensures CleanValue(CleanValue(val, fraction), fraction) == CleanValue(val, fraction)
  {
    var r := CleanValue(val, fraction);
    if r == "" {
      assert Strip("") == "";
    } else {
      assert IsDecimal(r);
      CleanDecimal(r, fraction);
    }
  }

  /** A parenthesised number is read as its negation: `(d)` becomes `-d`. */
  lemma CleanParenthesised(d: string, fraction: string -> string)
    requires IsUnsigned(d)
    ensures CleanValue("(" + d + ")", fraction) == "-" + d
  {
    var s := "(" + d + ")";
    UnsignedChars(d);
    StripOfTrimmed(s);
    assert forall i :: 1 <= i < |s| - 1 ==> s[i] == d[i - 1];
    RemoveSeparatorsOfClean(s);
    assert s[1..|s| - 1] == d;
    assert ("-" + d)[1..] == d;
  }

  /** The normaliser looks at a cell only through its normalised text. */
  lemma CleanByNormalized(a: string, b: string, fraction: string -> string)
    requires Normalize(a) == Normalize(b)
    ensures CleanValue(a, fraction) == CleanValue(b, fraction)
  {
  }

  /** Outside surrounding whitespace, separators carry no meaning: a cell
      without whitespace cleans to what it cleans to with its commas, plus
      signs and no-break spaces deleted. */
  lemma SeparatorsIgnored(s: string, fraction: string -> string)
    requires forall i :: 0 <= i < |s| ==> !IsSpace(s[i])
    ensures CleanValue(s, fraction) == CleanValue(RemoveSeparators(s), fraction)
  {
    StripOfTrimmed(s);
    var r := RemoveSeparators(s);
    RemoveSeparatorsMembers(s);
    assert Normalize(s) == r;
    forall i | 0 <= i < |r|
      ensures !IsSpace(r[i])
    {
      assert r[i] in r;
      var k :| 0 <= k < |s| && s[k] == r[i];
    }
    StripOfTrimmed(r);
    RemoveSeparatorsIdempotent(s);
    assert Normalize(r) == r;
    CleanByNormalized(s, r, fraction);
  }

  /** Literal text without whitespace or separators is its own normal form. */
  lemma NormalizePlain(s: string)
    requires forall i :: 0 <= i < |s| ==> !IsSpace(s[i]) && !IsSeparator(s[i])
    ensures Normalize(s) == s
  {
    StripOfTrimmed(s);
    RemoveSeparatorsOfClean(s);
  }

  // The separator-deleting scans of the worked cases below are evaluated in
  // small lemmas of their own, which keeps the solver from unfolding the
  // string functions on literal text over and over.

  lemma RemovedThousandsScan() ensures RemoveFrom("1,234", 0) == "1234" { }
  lemma RemovedThousands() ensures RemoveSeparators("1,234") == "1234" {
    RemovedThousandsScan();
    RemoveFromSpec("1,234", 0);
    assert "1,234"[0..] == "1,234";
  }
  lemma RemovedPlusScan() ensures RemoveFrom("+5", 0) == "5" { }
  lemma RemovedPlus() ensures RemoveSeparators("+5") == "5" {
    RemovedPlusScan();
    RemoveFromSpec("+5", 0);
    assert "+5"[0..] == "+5";
  }
  lemma StrippedPadded() ensures Strip(" 1,234.50 ") == "1,234.50" {
    assert StripRight(" 1,234.50 ") == " 1,234.50";
  }
  lemma RemovedPaddedScan() ensures RemoveFrom("1,234.50", 0) == "1234.50" { }
  lemma RemovedPadded() ensures RemoveSeparators("1,234.50") == "1234.50" {
    RemovedPaddedScan();
    RemoveFromSpec("1,234.50", 0);
    assert "1,234.50"[0..] == "1,234.50";
  }

  /** A lone dash (the site's "no data" mark) is rejected. */
  lemma CleanDash(fraction: string -> string)
    ensures CleanValue("-", fraction) == ""
  {
    NormalizePlain("-");
    assert !IsUnsigned("-"[1..]);
    assert !IsDecimal("-");
  }

  /** Words are rejected. */
  lemma CleanWord(fraction: string -> string)
    ensures CleanValue("abc", fraction) == ""
    ensures CleanValue("n/a", fraction) == ""
  {
    NormalizePlain("abc");
    assert forall k :: 0 < k < 3 ==> "abc"[..k][0] == 'a';
    assert !IsDecimal("abc");
    NormalizePlain("n/a");
    assert forall k :: 0 < k < 3 ==> "n/a"[..k][0] == 'n';
    assert !IsDecimal("n/a");
  }

  /** The empty cell stays empty. */
  lemma CleanEmpty(fraction: string -> string)
    ensures CleanValue("", fraction) == ""
  {
    assert Normalize("") == "";
    assert !IsDecimal("");
  }

  /** An accounting negative. */
  lemma CleanNegativeExample(fraction: string -> string)
    ensures CleanValue("(123)", fraction) == "-123"
  {
    NormalizePlain("(123)");
    assert IsDigits("123");
    assert "-123"[1..] == "123";
    assert CleanText("(123)") == "-123";
  }

  /** Thousands separators and plus signs are dropped. */
  lemma CleanSeparatorExamples(fraction: string -> string)
    ensures CleanValue("1,234", fraction) == "1234"
    ensures CleanValue("+5", fraction) == "5"
  {
    assert Strip("1,234") == "1,234";
    RemovedThousands();
    assert IsDigits("1234");
    assert CleanText("1234") == "1234";
    assert Strip("+5") == "+5";
    RemovedPlus();
    assert IsDigits("5");
    assert CleanText("5") == "5";
  }

  /** Surrounding whitespace goes, inner separators go, the decimal stays. */
  lemma CleanPaddedExample(fraction: string -> string)
    ensures CleanValue(" 1,234.50 ", fraction) == "1234.50"
  {
    StrippedPadded();
    RemovedPadded();
    assert PointAt("1234.50", 4);
    assert CleanText("1234.50") == "1234.50";
  }

  // ---------------------------------------------------------------------------
  // is_valid

  /** `is_valid(values)`: every entry matches `^-?\d+(\.\d+)?%?$`. */
  predicate IsValid(values: seq<string>) {
    forall i :: 0 <= i < |values| ==> IsValidEntry(values[i])
  }

  predicate IsValidEntry(v: string) {
    IsDecimal(v) || (IsPercent(v) && IsDecimal(v[..|v| - 1]))
  }

  /** Outside the percent branch a cleaned cell is a valid entry exactly
      when it is not empty. */
  lemma ValidEntryOfClean(v: string, fraction: string -> string)
    requires !IsPercent(Normalize(v))
    ensures IsValidEntry(CleanValue(v, fraction)) <==> CleanValue(v, fraction) != ""
  {
    var r := CleanValue(v, fraction);
    assert r == CleanText(Normalize(v));
    if r == "" {
      assert !IsDigits("");
      assert !IsDecimal("");
    }
  }

  /** `[clean_value(td.text) for td in cells]`. */
  function CleanAll(cells: seq<string>, fraction: string -> string): (r: seq<string>)
    ensures |r| == |cells|
    ensures forall i :: 0 <= i < |cells| ==> r[i] == CleanValue(cells[i], fraction)
  {
    seq(|cells|, i requires 0 <= i < |cells| => CleanValue(cells[i], fraction))
  }

  /** On cells outside the percent branch, a list of cleaned values is valid
      exactly when no cell was cleaned to the empty string. */
  lemma ValidIffNoHoles(cells: seq<string>, fraction: string -> string)
    requires forall i :: 0 <= i < |cells| ==> !IsPercent(Normalize(cells[i]))
    ensures IsValid(CleanAll(cells, fraction)) <==> "" !in CleanAll(cells, fraction)
  {
    var vs := CleanAll(cells, fraction);
    forall i | 0 <= i < |vs|
      ensures IsValidEntry(vs[i]) <==> vs[i] != ""
    {
      ValidEntryOfClean(cells[i], fraction);
    }
  }
}

=== FILE: views.dfy ===
/** The two pivots of stock_recommender.py, `quarterly_view` and
    `sector_view`: query rows `(key, quarter, value)` become, per key, the
    list of values over the ascending distinct quarter labels, with `""`
    where a key has no value for a quarter. The Flask routing, the SQL and
    the template rendering are outside the model; the rows the query returns
    are the input. */
module Views {
  import opened Order
  import opened Store

  /** One query row: the grouping key (a metric, or a stock and a metric),
      the quarter label and the stored value. */
  datatype Cell<K> = Cell(key: K, quarter: string, value: string)

  /** What a pivot hands to its template: the quarter labels and, per key,
      one value per label. */
  datatype View<K> = View(quarters: seq<string>, data: map<K, seq<string>>)

  /** Row `i` is the last one for key `k` and quarter `q`. */
  predicate LastAt<K(==)>(rows: seq<Cell<K>>, k: K, q: string, i: int) {
    0 <= i < |rows| && rows[i].key == k && rows[i].quarter == q
    && forall j :: i < j < |rows| ==> !(rows[j].key == k && rows[j].quarter == q)
  }

  /** The nested dictionary the loop builds with
      `data[key][quarter] = value`, one row after another. */
  function Nest<K(==)>(rows: seq<Cell<K>>): map<K, map<string, string>>
  {
    if |rows| == 0 then map[]
    else
      var d := Nest(rows[..|rows| - 1]);
      var c := rows[|rows| - 1];
      d[c.key := (if c.key in d then d[c.key] else map[])[c.quarter := c.value]]
  }

  /** The nested dictionary has an entry for every key that occurs, and its
      value for a quarter is the one in the last row for that key and
      quarter. */
  lemma {:induction false} NestSpec<K>(rows: seq<Cell<K>>)
    ensures forall k :: k in Nest(rows) <==> exists i :: 0 <= i < |rows| && rows[i].key == k
    ensures forall k, q :: k in Nest(rows) ==>
              (q in Nest(rows)[k] <==> exists i :: 0 <= i < |rows| && rows[i].key == k && rows[i].quarter == q)
    ensures forall k, q, i :: LastAt(rows, k, q, i) ==> k in Nest(rows) && q in Nest(rows)[k] && Nest(rows)[k][q] == rows[i].value
    decreases |rows|
  {
    if |rows| > 0 {
      var p := rows[..|rows| - 1];
      NestSpec(p);
      assert forall i :: 0 <= i < |p| ==> p[i] == rows[i];
      forall k, q, i | LastAt(rows, k, q, i)
        ensures k in Nest(rows) && q in Nest(rows)[k] && Nest(rows)[k][q] == rows[i].value
      {
        if i < |p| {
          assert LastAt(p, k, q, i);
        }
      }
    }
  }

  /** The quarter labels of the rows, once each, sorted ascending by code
      point. `quarterly_view` gathers them in a list, `sector_view` in a set;
      both sort the distinct labels. */
  function QuarterList<K(==)>(rows: seq<Cell<K>>): seq<string> {
    Sort(Dedup(seq(|rows|, i requires 0 <= i < |rows| => rows[i].quarter)))
  }

  /** `[cells.get(q, "") for q in quarters]`. */
  function Fill(cells: map<string, string>, quarters: seq<string>): (r: seq<string>)
    ensures |r| == |quarters|
    ensures forall j :: 0 <= j < |quarters| && quarters[j] in cells ==> r[j] == cells[quarters[j]]
    ensures forall j :: 0 <= j < |quarters| && quarters[j] !in cells ==> r[j] == ""
  {
    seq(|quarters|, j requires 0 <= j < |quarters| => if quarters[j] in cells then cells[quarters[j]] else "")
  }

  /** The pivot shared by both views. */
  function Pivot<K(==)>(rows: seq<Cell<K>>): View<K> {
    var qs := QuarterList(rows);
    var d := Nest(rows);
    View(qs, map k | k in d :: Fill(d[k], qs))
  }

  /** The pivot's quarter list is strictly ascending and holds exactly the
      quarters of the rows; it has a list for exactly the keys of the rows;
      each list has one entry per quarter; the entry is the value of the last
      row for that key and quarter, and `""` when no row has them. */
  lemma PivotSpec<K>(rows: seq<Cell<K>>)
    ensures StrictlySorted(Pivot(rows).quarters)
    ensures forall q :: q in Pivot(rows).quarters <==> exists i :: 0 <= i < |rows| && rows[i].quarter == q
    ensures forall k :: k in Pivot(rows).data <==> exists i :: 0 <= i < |rows| && rows[i].key == k
    ensures forall k :: k in Pivot(rows).data ==> |Pivot(rows).data[k]| == |Pivot(rows).quarters|
    ensures forall k, j, i ::
              (k in Pivot(rows).data && 0 <= j < |Pivot(rows).quarters| && LastAt(rows, k, Pivot(rows).quarters[j], i))
              ==> Pivot(rows).data[k][j] == rows[i].value
    ensures forall k, j ::
              (k in Pivot(rows).data && 0 <= j < |Pivot(rows).quarters|
               && forall i :: 0 <= i < |rows| ==> !(rows[i].key == k && rows[i].quarter == Pivot(rows).quarters[j]))
              ==> Pivot(rows).data[k][j] == ""
  {
    PivotQuarters(rows);
    NestSpec(rows);
  }

  /** The quarter part of `PivotSpec`. */
  lemma PivotQuarters<K>(rows: seq<Cell<K>>)
    ensures StrictlySorted(Pivot(rows).quarters)
    ensures forall q :: q in Pivot(rows).quarters <==> exists i :: 0 <= i < |rows| && rows[i].quarter == q
  {
    var labels := seq(|rows|, i requires 0 <= i < |rows| => rows[i].quarter);
    SortDedup(labels);
    assert forall q :: q in labels <==> exists i :: 0 <= i < |rows| && rows[i].quarter == q by {
      forall q | q in labels ensures exists i :: 0 <= i < |rows| && rows[i].quarter == q {
        var i :| 0 <= i < |labels| && labels[i] == q;
      }
      forall q | exists i :: 0 <= i < |rows| && rows[i].quarter == q ensures q in labels {
        var i :| 0 <= i < |rows| && rows[i].quarter == q;
        assert labels[i] == q;
      }
    }
  }

  /** The key part of `PivotSpec`. */
  lemma PivotKeys<K>(rows: seq<Cell<K>>)
    ensures forall k :: k in Pivot(rows).data <==> exists i :: 0 <= i < |rows| && rows[i].key == k
  {
    NestSpec(rows);
  }

  lemma MarchBeforeSeptember()
    ensures StrictlySorted(["Mar 2023", "Sep 2022"])
  {
    assert LexLess("Mar 2023", "Sep 2022");
  }

  /** The first pivot cannot tell quarters apart by date: "Mar 2023" is
      placed before "Sep 2022". */
  lemma LexicalQuarterOrder<K>(rows: seq<Cell<K>>)
    requires |rows| == 2 && rows[0].quarter == "Sep 2022" && rows[1].quarter == "Mar 2023"
    ensures Pivot(rows).quarters == ["Mar 2023", "Sep 2022"]
  {
    PivotQuarters(rows);
    var qs := Pivot(rows).quarters;
    var expected := ["Mar 2023", "Sep 2022"];
    forall q ensures q in qs <==> q in expected {
      if q in qs {
        var i :| 0 <= i < |rows| && rows[i].quarter == q;
        assert i == 0 || i == 1;
      }
      if q == "Sep 2022" {
        assert rows[0].quarter == q;
      }
      if q == "Mar 2023" {
        assert rows[1].quarter == q;
      }
    }
    MarchBeforeSeptember();
    StrictlySortedUnique(qs, expected);
  }

  // ---------------------------------------------------------------------------
  // quarterly_view

  /** `quarterly_view(stock)` over the rows `(metric, quarter, value)` the
      query returns for the stock. */
  function QuarterlyView(rows: seq<Cell<string>>): View<string> {
    Pivot(rows)
  }

  /** The query result for a stock: every row is a stored row of that stock,
      and every stored row of the stock is among them, in any order. */
  predicate RowsOfStock(t: Table, stock: string, rows: seq<Cell<string>>) {
    (forall i :: 0 <= i < |rows| ==>
       Key(stock, rows[i].key, rows[i].quarter) in t && t[Key(stock, rows[i].key, rows[i].quarter)].value == rows[i].value)
    && (forall k :: k in t && k.stock == stock ==>
          exists i :: 0 <= i < |rows| && rows[i].key == k.metric && rows[i].quarter == k.quarter)
  }

  /** Reading back what the table holds for a stock: the view lists every
      metric stored for it, every quarter stored for it, and at each
      position the stored value, or `""` where the table has no row. */
  lemma QuarterlyViewOfTable(t: Table, stock: string, rows: seq<Cell<string>>)
    requires RowsOfStock(t, stock, rows)
    ensures forall m :: m in QuarterlyView(rows).data <==> exists k :: k in t && k.stock == stock && k.metric == m
    ensures forall q :: q in QuarterlyView(rows).quarters <==> exists k :: k in t && k.stock == stock && k.quarter == q
    ensures forall m, j :: m in QuarterlyView(rows).data && 0 <= j < |QuarterlyView(rows).quarters| ==>
              QuarterlyView(rows).data[m][j]
              == (if Key(stock, m, QuarterlyView(rows).quarters[j]) in t
                  then t[Key(stock, m, QuarterlyView(rows).quarters[j])].value else "")
  {
    PivotSpec(rows);
    var v := QuarterlyView(rows);
    forall m ensures m in v.data <==> exists k :: k in t && k.stock == stock && k.metric == m {
      if m in v.data {
        var i :| 0 <= i < |rows| && rows[i].key == m;
        assert Key(stock, m, rows[i].quarter) in t;
      }
    }
    forall q ensures q in v.quarters <==> exists k :: k in t && k.stock == stock && k.quarter == q {
      if q in v.quarters {
        var i :| 0 <= i < |rows| && rows[i].quarter == q;
        assert Key(stock, rows[i].key, q) in t;
      }
    }
    forall m, j | m in v.data && 0 <= j < |v.quarters|
      ensures v.data[m][j] == (if Key(stock, m, v.quarters[j]) in t then t[Key(stock, m, v.quarters[j])].value else "")
    {
      var q := v.quarters[j];
      if Key(stock, m, q) in t {
        var i :| 0 <= i < |rows| && rows[i].key == m && rows[i].quarter == q;
        var last := LastOf(rows, m, q, i);
        assert LastAt(rows, m, q, last);
      }
    }
  }

  /** Some row matches, so a last matching row exists. */
  lemma LastOf<K>(rows: seq<Cell<K>>, k: K, q: string, i: int) returns (last: int)
    requires 0 <= i < |rows| && rows[i].key == k && rows[i].quarter == q
    ensures LastAt(rows, k, q, last)
  {
    last := i;
    var j := i + 1;
    while j < |rows|
      invariant i <= last < j <= |rows|
      invariant rows[last].key == k && rows[last].quarter == q
      invariant forall j' :: last < j' < j ==> !(rows[j'].key == k && rows[j'].quarter == q)
    {
      if rows[j].key == k && rows[j].quarter == q {
        last := j;
      }
      j := j + 1;
    }
  }

  // ---------------------------------------------------------------------------
  // sector_view

  /** `f"{stock} - {metric}"`. */
  function SectorLabel(stock: string, metric: string): string {
    stock + " - " + metric
  }

  /** The order in which `sector_data` first sees each `(stock, metric)`. */
  function KeyOrder(rows: seq<Cell<(string, string)>>): seq<(string, string)> {
    Dedup(seq(|rows|, i requires 0 <= i < |rows| => rows[i].key))
  }

  /** The dictionary comprehension that renames each key to its label, in
      key order: a later key overwrites an earlier one with the same label. */
  function Relabel(order: seq<(string, string)>, data: map<(string, string), seq<string>>): map<string, seq<string>>
  {
    if |order| == 0 then map[]
    else
      var m := Relabel(order[..|order| - 1], data);
      var k := order[|order| - 1];
      if k in data then m[SectorLabel(k.0, k.1) := data[k]] else m
  }

  /** Position `i` of `order` holds the last key in `data` with label `l`. */
  predicate LastLabelled(order: seq<(string, string)>, data: map<(string, string), seq<string>>, l: string, i: int) {
    0 <= i < |order| && order[i] in data && SectorLabel(order[i].0, order[i].1) == l
    && forall j :: i < j < |order| && order[j] in data ==> SectorLabel(order[j].0, order[j].1) != l
  }

  /** The renamed dictionary has the labels of the keys that are in `data`,
      each holding the list of the last key with that label. */
  lemma {:induction false} RelabelSpec(order: seq<(string, string)>, data: map<(string, string), seq<string>>)
    ensures forall l :: l in Relabel(order, data) <==>
              exists i :: 0 <= i < |order| && order[i] in data && SectorLabel(order[i].0, order[i].1) == l
    ensures forall l, i :: LastLabelled(order, data, l, i) ==> l in Relabel(order, data) && Relabel(order, data)[l] == data[order[i]]
    decreases |order|
  {
    if |order| > 0 {
      var p := order[..|order| - 1];
      RelabelSpec(p, data);
      assert forall i :: 0 <= i < |p| ==> p[i] == order[i];
      forall l, i | LastLabelled(order, data, l, i)
        ensures l in Relabel(order, data) && Relabel(order, data)[l] == data[order[i]]
      {
        if i < |p| {
          assert LastLabelled(p, data, l, i);
        }
      }
    }
  }

  /** `sector_view(sector)` over the rows `((stock, metric), quarter, value)`
      the query returns for the sector. */
  function SectorView(rows: seq<Cell<(string, string)>>): View<string> {
    var p := Pivot(rows);
    View(p.quarters, Relabel(KeyOrder(rows), p.data))
  }

  /** `sector_data` first sees exactly the keys of the rows. */
  lemma KeyOrderMembers(rows: seq<Cell<(string, string)>>)
    ensures forall k :: k in KeyOrder(rows) <==> exists i :: 0 <= i < |rows| && rows[i].key == k
  {
    var keys := seq(|rows|, i requires 0 <= i < |rows| => rows[i].key);
    forall k | k in keys ensures exists i :: 0 <= i < |rows| && rows[i].key == k {
      var i :| 0 <= i < |keys| && keys[i] == k;
    }
    forall k | exists i :: 0 <= i < |rows| && rows[i].key == k ensures k in keys {
      var i :| 0 <= i < |rows| && rows[i].key == k;
      assert keys[i] == k;
    }
  }

  /** The order of first appearance holds exactly the keys of the pivot. */
  lemma KeyOrderIsPivotKeys(rows: seq<Cell<(string, string)>>)
    ensures forall k :: k in KeyOrder(rows) <==> k in Pivot(rows).data
  {
    KeyOrderMembers(rows);
    PivotKeys(rows);
  }

  /** The sector view has the pivot's quarters and one entry per label of a
      key of the pivot, and each entry is the pivot's list of some key with
      that label, so it has the pivot's shape and values. */
  lemma SectorViewSpec(rows: seq<Cell<(string, string)>>)
    ensures SectorView(rows).quarters == Pivot(rows).quarters
    ensures forall l :: l in SectorView(rows).data <==>
              exists k :: k in Pivot(rows).data && SectorLabel(k.0, k.1) == l
    ensures forall l :: l in SectorView(rows).data ==>
              exists k :: k in Pivot(rows).data && SectorLabel(k.0, k.1) == l && SectorView(rows).data[l] == Pivot(rows).data[k]
  {
    forall l ensures l in SectorView(rows).data <==> exists k :: k in Pivot(rows).data && SectorLabel(k.0, k.1) == l {
      SectorLabelOccurs(rows, l);
    }
    forall l | l in SectorView(rows).data
      ensures exists k :: k in Pivot(rows).data && SectorLabel(k.0, k.1) == l && SectorView(rows).data[l] == Pivot(rows).data[k]
    {
      var i := SectorEntry(rows, l);
    }
  }

  /** A label of the sector view holds the list of the last key in first-
      appearance order that has the label. */
  lemma SectorEntry(rows: seq<Cell<(string, string)>>, l: string) returns (i: int)
    requires l in SectorView(rows).data
    ensures LastLabelled(KeyOrder(rows), Pivot(rows).data, l, i)
    ensures KeyOrder(rows)[i] in Pivot(rows).data && SectorView(rows).data[l] == Pivot(rows).data[KeyOrder(rows)[i]]
  {
    RelabelSpec(KeyOrder(rows), Pivot(rows).data);
    i := LastLabel(KeyOrder(rows), Pivot(rows).data, l);
  }

  lemma SectorLabelOccurs(rows: seq<Cell<(string, string)>>, l: string)
    ensures l in SectorView(rows).data <==> exists k :: k in Pivot(rows).data && SectorLabel(k.0, k.1) == l
  {
    var order := KeyOrder(rows);
    var d := Pivot(rows).data;
    assert SectorView(rows).data == Relabel(order, d);
    KeyOrderIsPivotKeys(rows);
    RelabelSpec(order, d);
    if l in SectorView(rows).data {
      var i :| 0 <= i < |order| && order[i] in d && SectorLabel(order[i].0, order[i].1) == l;
    }
    if exists k :: k in d && SectorLabel(k.0, k.1) == l {
      var k :| k in d && SectorLabel(k.0, k.1) == l;
      assert k in order;
      var i :| 0 <= i < |order| && order[i] == k;
    }
  }

  /** Some key in `data` has label `l`, so a last one exists. */
  lemma LastLabel(order: seq<(string, string)>, data: map<(string, string), seq<string>>, l: string) returns (last: int)
    requires exists i :: 0 <= i < |order| && order[i] in data && SectorLabel(order[i].0, order[i].1) == l
    ensures LastLabelled(order, data, l, last)
  {
    var i :| 0 <= i < |order| && order[i] in data && SectorLabel(order[i].0, order[i].1) == l;
    last := i;
    var j := i + 1;
    while j < |order|
      invariant i <= last < j <= |order|
      invariant order[last] in data && SectorLabel(order[last].0, order[last].1) == l
      invariant forall j' :: last < j' < j && order[j'] in data ==> SectorLabel(order[j'].0, order[j'].1) != l
    {
      if order[j] in data && SectorLabel(order[j].0, order[j].1) == l {
        last := j;
      }
      j := j + 1;
    }
  }

  /** Two keys share a label only if they are equal, when neither stock code
      contains '-' (true of every code the loader knows). */
  lemma {:induction false} SectorLabelInjective(s1: string, m1: string, s2: string, m2: string)
    requires '-' !in s1 && '-' !in s2
    requires SectorLabel(s1, m1) == SectorLabel(s2, m2)
    ensures s1 == s2 && m1 == m2
  {
    var l := SectorLabel(s1, m1);
    assert l == s1 + " - " + m1 && l[|s1| + 1] == '-';
    assert l == s2 + " - " + m2 && l[|s2| + 1] == '-';
    assert |s1| == |s2|;
    assert s1 == l[..|s1|] == s2;
    assert m1 == l[|s1| + 3..] == m2;
  }

  /** Without that condition labels collide: the keys ("A", "- B") and
      ("A -", "B") both become "A - - B", and the view keeps only one. */
  lemma SectorLabelCollision()
    ensures SectorLabel("A", "- B") == SectorLabel("A -", "B")
  {
  }

  /** When no stock code contains '-', every key of the sector pivot keeps
      its own list under its label. */
  lemma SectorViewInjective(rows: seq<Cell<(string, string)>>)
    requires forall i :: 0 <= i < |rows| ==> '-' !in rows[i].key.0
    ensures forall k :: k in Pivot(rows).data ==>
              SectorLabel(k.0, k.1) in SectorView(rows).data
              && SectorView(rows).data[SectorLabel(k.0, k.1)] == Pivot(rows).data[k]
  {
    forall k | k in Pivot(rows).data
      ensures SectorLabel(k.0, k.1) in SectorView(rows).data
              && SectorView(rows).data[SectorLabel(k.0, k.1)] == Pivot(rows).data[k]
    {
      var l := SectorLabel(k.0, k.1);
      SectorLabelOccurs(rows, l);
      var i := SectorEntry(rows, l);
      var k' := KeyOrder(rows)[i];
      PivotKeys(rows);
      var r :| 0 <= r < |rows| && rows[r].key == k;
      var r' :| 0 <= r' < |rows| && rows[r'].key == k';
      SectorLabelInjective(k.0, k.1, k'.0, k'.1);
    }
  }

}

=== FILE: wrappers.dfy ===
/** The optional-value type used wherever the source returns `None` or leaves a
    dictionary lookup without a hit. */
module Wrappers {

  datatype Option<+T> = None | Some(value: T) {

    /** Returns the value held by `Some`, or `default` for `None`
        (Python's `dict.get(key, default)`). */
    function GetOr(default: T): T {
      match this
      case Some(v) => v
      case None => default
    }
  }
}
